=== FILE: README.md ===
# Physics lab calculator: a Dafny model of its expression core

The calculator reads one line at a time. It expands unit suffixes on numbers:
`10k` becomes `10000.0` and `1.5M` becomes `1500000.0`. It splits the line into
tokens: resistor calls `R(...)`, names, numbers, operator symbols and
parentheses. It then rewrites the tokens into a Python expression by filling
each operator's template, handling parentheses first and then the operator
precedence levels from the highest down. Each resistor call has `.resistance`
appended. The result goes to `eval`, and the value is stored in the session:

- a line `name = expr` binds `name`;
- any other line binds `_` and is appended to the history.

The operators the default tables use are `+` (numeric addition, used for
series resistance), `quick_parrel` for parallel resistance, and the relative
error `epercent`. Every resistor call reaches them with `.resistance`
appended, so `Resistor`'s own `+` and `*` are modelled but no default
template reaches them.

The model is split into these modules:

| module | file | what it holds |
|---|---|---|
| `Results`, `Errors` | `results.dfy` | `Option`, `Result`, and the Python exceptions that can surface |
| `Text` | `text.dfy` | character classes, greedy runs, `strip`, `lower`, `isidentifier`, `find` |
| `Operators` | `operators.dfy` | the operator table, templates, the operator character class, and the precedence levels in descending order |
| `Tokenizer` | `tokenizer.dfy` | `_tokenize`: one `findall` step, the whole token list, and the round trip with a space-joined token list |
| `Suffixes` | `suffixes.dfy` | which text the suffix pattern of `_expand_suffixes` matches, and the left-to-right substitution |
| `Parser` | `parser.dfy` | `_parse_tokens` step by step, with its failure modes |
| `Precedence` | `precedence.dfy` | a reference tree reading of `operand op operand ...`, and the proof that the parser computes it |
| `Calculator` | `calculator.dfy` | `parse`: tokenize, parse, and the `.resistance` rewrite, which has a proved inverse |
| `Session` | `session.dfy` | one pass of the `begin` loop as a state transition, a run over many lines, and the `get_*`/`clear_*` accessors |
| `Circuits` | `circuits.dfy` | `Resistor.__add__`, `Resistor.__mul__`, `quick_parrel`, with Python's operator dispatch |
| `Factors` | `factors.dfy` | `epercent` |
| `Tables` | `tables.dfy` | the default and the experiment configurations, with worked parses |

These are the main results:

- `Precedence.ParseTokensRef`: on any alternating token list `operand op operand ... operand`, the parser returns the reference reading. In that reading, the rightmost operator of lowest precedence is the root, so operators of equal precedence group from the left.
- `Calculator.ParseWellFormed`: this carries over to `parse` on the space-joined text.
- `Tokenizer.TokenizeJoin`: tokenizing the space-joined text gives back the tokens.
- `Calculator.DetachAttach`: the `.resistance` rewrite can be undone.

The parser's failure modes are stated exactly. `UnboundLocalError` occurs exactly when the last token is `(`. The other two are stated per precedence level. If the first operator of the level being reduced is the last token, the lookup past the end raises `IndexError`. If it is the first token of a longer list, the scan of that level never ends. Whether a whole line fails this way depends on what the higher levels have left: `x op` raises `IndexError`, and `op x` never returns.

## Model

| member | source | states |
|---|---|---|
| Text.FirstIndexOf | calculator.py:261-262 | the index found holds `x` and no earlier index does; there is none exactly when `x` does not occur |
| Text.LastIndexOf | calculator.py:173-176 | the index found holds `x` and no later index does; there is none exactly when `x` does not occur |
| Text.Strip | calculator.py:262 | neither end of the result is whitespace, and text without whitespace is returned unchanged |
| Text.StripAround | calculator.py:262 | for whitespace `w1`, `w2` and a text `x` that neither starts nor ends with whitespace, stripping `w1 + x + w2` gives exactly `x` |
| Operators.DescLevelsSpec | calculator.py:194 | `sorted(set, reverse=True)`: the list strictly descends and holds exactly the members of the set |
| Operators.LevelsSpec | calculator.py:194 | the precedence levels strictly descend, and they are exactly the precedences of the table's operators |
| Operators.OpCharsOfSingleCharKeys | calculator.py:151-156 | with one-character symbols, a character is in the tokenizer's operator class exactly when it is a symbol |
| Tokenizer.RCallLen | calculator.py:153 | a resistor-call match starts with `R`, ends with `)` and has at least four characters; the converse is `Tokenizer.RCallOf` |
| Tokenizer.RCallOf | calculator.py:153 | every `R`, whitespace, `(`, a non-empty text without `)`, and `)` is matched in full whatever follows it, and as a whole token is a resistor call |
| Tokenizer.MatchAt | calculator.py:152-158 | one `findall` step finds a lexeme of one of the five kinds, preceded only by whitespace |
| Tokenizer.Tokenize | calculator.py:159-160 | every token is a lexeme; the tokens occur in the text in order; when no operator character is whitespace, only a resistor call can contain whitespace |
| Tokenizer.LexemeKindsExclusive | calculator.py:152-158 | with punctuation symbols, every token is of exactly one kind |
| Tokenizer.TokenizeLexeme | calculator.py:152-160 | a single lexeme tokenizes to itself |
| Tokenizer.TokenizeJoin | calculator.py:152-160 | tokenizing a space-joined list of lexemes gives the list back, unless an `R` name is followed by `(` |
| Tokenizer.UnknownCharsSkipped | calculator.py:159-160 | text with no word character, operator character or parenthesis yields no token, and nothing is raised |
| Tokenizer.SpaceSkipped | calculator.py:155-156 | whitespace before a token is not part of it |
| Suffixes.SuffixMatchLen | calculator.py:133 | a match is a decimal number part (digits, an optional `.`, digits), then a suffix character, then a word boundary |
| Suffixes.NumberPartIsDecimal | calculator.py:133 | the greedy number part `\d+\.?\d*` is a decimal literal |
| Suffixes.ExpandSuffixes | calculator.py:123-140 | text with no suffix character is returned unchanged; what each match becomes is stated by `Suffixes.ExpandsSuffixedNumber`, `Suffixes.KeepsSuffixBeforeWordChar` and `Suffixes.ExpandWithoutMatchIsIdentity` |
| Suffixes.SuffixedNumberMatches | calculator.py:133 | a decimal literal directly followed by a suffix and a non-word character matches as one piece |
| Suffixes.ExpandsSuffixedNumber | calculator.py:133-140 | a suffixed decimal literal is replaced by the rendering of its scaled value |
| Suffixes.KeepsSuffixBeforeWordChar | calculator.py:133 | a suffix followed by a word character, as in `10kx`, is left alone |
| Suffixes.ExpandWithoutMatchIsIdentity | calculator.py:140 | text with no match is unchanged |
| Suffixes.ExpandKeepsMatchFreePrefix | calculator.py:140 | text at none of whose positions a match starts is copied unchanged, and the scan goes on with the rest, so the per-match results hold anywhere in a line |
| Suffixes.ExpandWithoutSuffixCharIsIdentity | calculator.py:140 | text with no suffix character is unchanged |
| Parser.FirstAtPrec | calculator.py:195-205 | the scan finds the first operator of the level, if any |
| Parser.Fold | calculator.py:202 | a fold shortens the list by exactly two |
| Precedence.FoldIndices | calculator.py:198-202 | a fold keeps every token before the left operand and after the right operand, and puts the template filled with the two neighbours in place of the three |
| Parser.PyFoldInside | calculator.py:200-202 | away from the front, the list update replaces operator and operands by the filled template |
| Parser.PyFoldAtFrontRepeats | calculator.py:200-203 | with the operator first, the update neither shortens the list nor moves the operator, so the scan finds it again |
| Parser.ReduceLevel | calculator.py:195-205 | after a level, none of its operators is left; on failure one was present; the list shrinks by pairs |
| Parser.ReduceLevelEdges | calculator.py:196-203 | if the level's first operator is the last token, the level raises `IndexError`; if it is the first of two or more tokens, the level never returns |
| Parser.ReduceLevels | calculator.py:194-205 | the levels leave operator-free input alone, and they never raise `UnboundLocalError` |
| Parser.Innermost | calculator.py:173-186 | the group runs from the last `(` to the first `)` after it, or to the last token if there is none; `end` is unbound exactly when `(` is last |
| Parser.InnermostUnclosed | calculator.py:179-186 | an unclosed `(` that is not last makes a group ending at the last token |
| Parser.Collapse | calculator.py:191 | the group becomes one token: the list shrinks by the group's length less one, has one `(` fewer, and does not end in `(` |
| Parser.Unparen | calculator.py:172-191 | the loop removes every `(`, keeps the list non-empty, and fails with `UnboundLocalError` exactly when the last token is `(` |
| Parser.UnclosedGroupDropsLastToken | calculator.py:180-191 | for an unclosed `(`, the last token is left out of the group and lost |
| Parser.ParseTokens | calculator.py:162-206 | no tokens give `""`; `UnboundLocalError` occurs exactly when the last token is `(` |
| Parser.TrailingOperator | calculator.py:200 | `x op` raises `IndexError` |
| Parser.LeadingOperator | calculator.py:200-203 | `op x` never returns |
| Parser.JuxtaposedOperands | calculator.py:206 | `x y` gives `x`, and `y` is dropped |
| Parser.ReduceLevelsFails | calculator.py:194-205 | if one level fails and the others leave the list alone, the loop fails the same way |
| Precedence.RightmostMin | calculator.py:194-203 | the root of the reference reading is an operator of least precedence with none of equal or lower precedence to its right |
| Precedence.FoldPreservesRef | calculator.py:198-202 | folding the first highest-precedence operator keeps the list alternating and keeps its reference reading |
| Precedence.ReduceLevelRef | calculator.py:195-205 | on an alternating list, a level succeeds, removes its operators and keeps the reference reading |
| Precedence.ReduceLevelsRef | calculator.py:194-205 | over all levels, an alternating list reduces to its reference reading |
| Precedence.ParseTokensRef | calculator.py:162-206 | on an alternating list, the parser returns the reference reading |
| Precedence.InnermostGroup | calculator.py:173-186 | in `x ( a ) y` with no parenthesis in `a` and no `(` in `y`, the group is `( a )` |
| Precedence.GroupReplacedByRef | calculator.py:172-191 | such a group parses as if it were the single token `(reference reading of a)` |
| Precedence.ParenthesisedRef | calculator.py:172-206 | `( a )` parses to the reference reading of `a`, in parentheses |
| Precedence.RefOfFive | calculator.py:194-203 | in `x o1 y o2 z` the higher-precedence operator binds first; on a tie, the left one does |
| Calculator.AttachResistance | calculator.py:223 | text without `R` is unchanged, and text never gets shorter |
| Calculator.DetachAttach | calculator.py:223 | removing the accessor after each call undoes the rewrite exactly |
| Calculator.AttachKeepsNoCall | calculator.py:223 | text that does not begin with a resistor call still does not after the rewrite |
| Calculator.WithAccessor | calculator.py:223 | a failure passes through unchanged; an expression comes back with `.resistance` after each resistor call, the exact rewrite of `Calculator.AttachResistance`, and removing the accessors gives the parser's output back |
| Calculator.Parse | calculator.py:208-224 | empty text gives `""`; an empty operator class is a pattern error; otherwise the result is exactly the parser's result on the tokens, with accessors after each resistor call, and failures pass through unchanged |
| Calculator.ParseWellFormed | calculator.py:208-224 | the space-joined alternating atoms and symbols parse to the reference reading, with accessors |
| Calculator.ParseFiveAtoms | calculator.py:208-224 | `x o1 y o2 z` parses to its reference reading, with accessors |
| Session.Env | calculator.py:248 | the environment holds the symbols and the session variables, and the variables shadow symbols of the same name |
| Session.IsExit | calculator.py:254 | a line ends the loop exactly when it is whitespace, `exit` in some letter case, and whitespace: one direction is `Session.ExitIgnoresCaseAndSpace`, the other `Session.ExitNeedsTheWordAlone` |
| Session.ExitIgnoresCaseAndSpace | calculator.py:254 | for any whitespace `w1`, `w2` and any `x` whose lower-case form is `exit`, the line `w1 + x + w2` ends the loop |
| Session.ExitNeedsTheWordAlone | calculator.py:254 | any line that ends the loop is leading whitespace, then four characters whose lower-case form is `exit`, then only whitespace; so `exit()` or `ex it` does not |
| Session.EvaluateKeepsFailuresApart | calculator.py:269-270 | evaluation succeeds exactly when the parser and `eval` both succeed, with `eval`'s value; a parser error is reported as such exactly when parsing fails; an exception from `eval` comes through unchanged |
| Session.Settle | calculator.py:269-291 | a value updates the state; an exception leaves it unchanged; a parser that never returns hangs the loop |
| Session.Step | calculator.py:245-291 | one loop pass: exit exactly at `exit` or end of input; the history only grows, by at most this line; variable names are kept; a failure changes nothing; the outcome of each kind of line is stated by `Session.Assign`, `Session.Record`, `Session.AssignmentChangesOneVariable` and `Session.PlainLineRecorded` |
| Session.Assign | calculator.py:261-274 | a bad name raises `ValueError` with its message and changes nothing; with a good name, a value of the right side binds that name only and leaves the history alone, a parser that never returns hangs the loop, and any other failure is reported with the state unchanged |
| Session.Record | calculator.py:277-284 | a value appends the line as typed, with that value, to the history and binds `_` to it, and nothing else changes; a parser that never returns hangs the loop; any other failure is reported with the state unchanged |
| Session.BadNameRaisesFirst | calculator.py:265-266 | a bad name raises before the operator table or `eval` are used, and the state is unchanged |
| Session.AssignmentChangesOneVariable | calculator.py:261-273 | for a whole loop pass on an assignment line with a good name: a value binds exactly that name and leaves the history and other variables alone; a failure leaves the state unchanged, or hangs on a parser that never returns |
| Session.PlainLineRecorded | calculator.py:278-283 | for a whole loop pass on a line without `=`: a value is appended with the line to the history and bound to `_`; a failure leaves the state unchanged, or hangs on a parser that never returns |
| Session.Run | calculator.py:245-291 | over many lines, the history only grows, by at most one entry per line, each tagged with a line actually entered; variables are never unbound; if every variable name was an identifier, every one still is |
| Session.ClearHistory | calculator.py:301-303 | the history is emptied and the variables are kept |
| Session.ClearVariables | calculator.py:305-307 | the variables are emptied and the history is kept |
| Session.ClearBoth | calculator.py:301-307 | clearing both, in either order, gives a fresh calculator |
| Session.HistoryAfterClear | calculator.py:301-303 | after a clear, the history holds at most one entry per line, each entered as one of those lines |
| Session.FreshNamesStayIdentifiers | calculator.py:96-98 | starting fresh, every session variable ever bound is named by an identifier |
| Circuits.ResistorAdd | circuits.py:8-11 | adding a resistor gives a resistor of the summed resistance; adding anything else raises `ValueError` |
| Circuits.ResistorMul | circuits.py:13-18 | resistor times resistor is the parallel combination, or division by zero; times a number it scales; anything else raises `ValueError` |
| Circuits.PyAdd | circuits.py:8-11 | numbers add; a resistor on the left dispatches to `__add__`; a number plus anything else is a `TypeError` |
| Circuits.PyMul | circuits.py:13-18 | numbers multiply; a resistor on the left dispatches to `__mul__`; a number times anything else is a `TypeError` |
| Circuits.PyDiv | circuits.py:24 | numbers divide exactly when the divisor is non-zero; a zero divisor raises `ZeroDivisionError`; anything else fails |
| Circuits.QuickParrel | circuits.py:23-24 | for numbers: product over sum, failing exactly when the sum is zero; with a resistor operand it always fails |
| Circuits.SeriesCommutesAndAssociates | circuits.py:8-11 | series combination commutes and associates |
| Circuits.ParallelConductancesAdd | circuits.py:13-15 | for positive resistances the parallel resistance is below both, and the conductances add |
| Circuits.QuickParrelMatchesResistorProduct | circuits.py:13-24 | `quick_parrel` on numbers equals the resistance of the resistor product |
| Factors.EPercent | factors.py:1-13 | fails exactly when the true value is zero; otherwise the result is non-negative, times the true value's magnitude equals the absolute deviation, and is zero exactly for an exact measurement |
| Factors.ErrorIsScaleFreeAndSymmetric | factors.py:13 | the error does not change when both values are scaled, or when the measurement is reflected about the true value |
| Tables.SuffixTablesValid | calculator.py:115-118 | the default suffix table is non-empty with no digit or `.` among its keys, and `k` and `m` are inverse multipliers |
| Tables.DefaultOpsShape | calculator.py:108-112 | the default symbols are single punctuation characters |
| Tables.DefaultLevels | calculator.py:108-112 | the default levels are 3, 2, 1 |
| Tables.SeriesOfParallel | calculator.py:108-112 | the parallel symbol binds tighter than `+`: in `a + b`, parallel `c`, `b` and `c` are combined in parallel and that in series with `a` |
| Tables.SeriesFromTheLeft | calculator.py:196-203 | `a + b + c` groups from the left |
| Tables.ParallelResistors | calculator.py:221-223 | two resistor calls joined by the parallel symbol become `quick_parrel` on the two resistances |
| Tables.CallsBetweenPlainText | calculator.py:223 | every resistor call gets the accessor, and the text between calls is kept |
| Tables.ExperimentOpsShape | cir_exper.py:73-81 | the experiment's symbols are single punctuation characters |
| Tables.PowerBeforeProduct | cir_exper.py:73-81 | with the experiment's table, `a * b ^ c` raises `b` to `c` before multiplying |

## Left out

- Terminal I/O is not modelled: the banner, `print`, `input`, the key remapping object and `KeyboardInterrupt`. A line is a parameter, and the end of input (`EOFError`) is `None`.
- Python's `eval` is a parameter of the session (`Evaluator`). The `Circuits` and `Factors` modules model the functions it calls.
- Floats are modelled as exact reals. Rounding, infinities and NaN are not modelled.
- Python's `float()` and `str()` on floats are uninterpreted parameters (`toFloat`, `render`) of suffix expansion.
- Character classes are ASCII. Python's `\d`, `\w`, `\s`, `str.strip`, `str.lower` and `str.isidentifier` also accept other Unicode characters.
- Suffixes.ValidSuffixes: requires a non-empty suffix table whose keys are single characters other than digits and `.`. The source joins the keys into the pattern unescaped, and an empty table leaves an empty suffix group that matches after every number and fails on the lookup. Neither case is modelled.
- Templates are modelled as prefix, middle and suffix around `{left}` and `{right}`. Other `str.format` fields and `{}` escapes are not modelled.
- Precedence.ParseTokensRef: the reference reading is proved only for tables whose symbols are single characters, on lists whose operands are not symbols. The end-to-end results in `Calculator` also assume the symbols are punctuation.
- `Resistor.power_dissipation` and `Resistor.__repr__` are not modelled; neither is used by the parser or the loop.
- `get_history` and `get_variables` return copies. With immutable values, a copy is the value itself, so nothing is left to state.
- The parser appends `.resistance` after every resistor call in its output, so `R(10k) + R(20k)` evaluates to a number. The model follows this code, although the banner at calculator.py:235 says that such a sum returns a `Resistor` object.
- The tokenizer never raises on unknown characters; it skips them. Suffix expansion also applies inside names: the pattern has no word boundary before the digits, so in `x10k` the `10k` is expanded. The model follows the code in both cases.
- Parser.LeadingOperator: the model says the scan of the level never returns. In the source, the update `tokens[:i-1] + [new] + tokens[i+2:]` at index 0 turns a list of `n` tokens into one of `2n - 2`. For the two tokens `op x` the list stays at two tokens, but the second token is replaced by the template filled with itself twice, so its text at least doubles on each pass; from three tokens up the list itself grows. In practice the process runs out of memory. A `MemoryError` is an `Exception`, so calculator.py:290 would report it and the loop would go on with the state unchanged. The model does not express memory exhaustion: it turns a parse that never returns into `Hang`, and `Session.Run` stops there with `hung` set.
- Parser.ParseTokens: its own contract states the failure modes only; the result on well-formed input is stated by Precedence.ParseTokensRef and Precedence.GroupReplacedByRef.
- Parser.Unparen: its own contract states the failure modes and the shape of the result only; what a pass does on a closed group is stated by Precedence.GroupReplacedByRef, and on an unclosed `(` by Parser.UnclosedGroupDropsLastToken.
- Parser.ReduceLevels: its own contract states the failure modes and the shape of the result only; the result on an alternating list is stated by Precedence.ReduceLevelsRef.
- Tokenizer.Tokenize: its own contract states only what kind of tokens come out, and in what order; the exact tokens of a space-joined list are stated by Tokenizer.TokenizeJoin.
- Calculator.AttachResistance: its own contract states only that text without `R` is unchanged and that nothing gets shorter; the exact rewrite is stated by Calculator.DetachAttach and Tables.CallsBetweenPlainText.
- Text.Strip: that exactly the whitespace at the ends is removed is stated by `Text.StripAround` for text holding some non-whitespace character; that an all-whitespace line strips to the empty text is not stated.
- Circuits.QuickParrel: for a resistor operand, states only that the call fails, not which exception is raised.
- Session.Run: does not state which variable values are bound; per-line values are given by `Session.Step`, `Session.Assign` and `Session.Record`.
- Circuits.PyAdd: `Other` stands for any value that is neither a number nor a `Resistor`, and the model says such an operand always gives `TypeError`. In Python, a number plus an object with a numeric `__radd__`, such as a complex number, succeeds. The experiment table's `^` can yield a complex number (a negative base to a fractional power, cir_exper.py:78), and complex values are not modelled.
- Circuits.PyMul: as for Circuits.PyAdd, a number times an `Other` is always a `TypeError` in the model, although a complex number or an object with a numeric `__rmul__` would succeed in Python.
- Python's `eval` can raise any exception. The model's `PyError` names the ones the circuit functions raise, plus `NameError` and `SyntaxError`, which `eval` raises on an unknown name or unreadable text. Other subclasses of `Exception` are not represented; the loop catches them all alike at calculator.py:290, reports them and leaves the state unchanged, so they would behave like the ones modelled. Two cases differ and the `Evaluator` cannot express them. An `EOFError` raised inside `eval`, as by `R(input() | )` at the end of input, is caught at calculator.py:287-289 and ends the loop. An exception that is not an `Exception`, such as the `SystemExit` of `R(exit() | )`, escapes `begin` altogether.
- Operators.Levels, Session.Evaluate: these functions carry no contract of their own; what they compute is stated by Operators.LevelsSpec and Session.EvaluateKeepsFailuresApart.

=== FILE: calculator.dfy ===
/** `Calculator.parse`: tokenise a line, parse the tokens, and give every
    resistor constructor call in the result the `.resistance` accessor, so
    that `R(...)` operands evaluate to their resistance. */
module Calculator {

  import opened Results
  import opened Text
  import opened Operators
  import opened Tokenizer
  import opened Parser
  import opened Precedence

  const Accessor: string := ".resistance"

  /** `re.sub(r'(R\s*\([^)]+\))', r'\1.resistance', s)`: scan left to right;
      after each match of the R-call pattern insert the accessor and go on
      after the match, otherwise copy one character. */
  function AttachResistance(s: string): (r: string)
    ensures 'R' !in s ==> r == s
    ensures |r| >= |s|
    decreases |s|
  {
    if |s| == 0 then ""
    else
      var n := RCallLen(s);
      if n > 0 then s[..n] + Accessor + AttachResistance(s[n..])
      else [s[0]] + AttachResistance(s[1..])
  }

  /** Removes the accessor after every R-call followed by it. */
  function DetachResistance(r: string): (s: string)
    ensures |s| <= |r|
    decreases |r|
  {
    if |r| == 0 then ""
    else
      var n := RCallLen(r);
      if n > 0 && Accessor <= r[n..] then r[..n] + DetachResistance(r[n + |Accessor|..])
      else [r[0]] + DetachResistance(r[1..])
  }

  /** Where two texts agree up to the character that ends a run, the run is
      the same in both. */
  lemma {:induction false} RunAgree(u: string, v: string, i: nat, p: char -> bool)
    requires i <= |u| && i + Run(u, i, p) < |u| && i + Run(u, i, p) < |v|
    requires forall j :: i <= j <= i + Run(u, i, p) ==> u[j] == v[j]
    ensures Run(v, i, p) == Run(u, i, p)
  {
    RunUnique(v, i, Run(u, i, p), p);
  }

  /** The R-call pattern never looks past the first `)` of the text: two
      texts that agree up to it agree on the match. */
  lemma {:induction false} RCallLenAgree(u: string, v: string, c: nat)
    requires c < |u| && c < |v| && u[c] == ')'
    requires forall j :: 0 <= j < c ==> u[j] != ')'
    requires forall j :: 0 <= j <= c ==> u[j] == v[j]
    ensures RCallLen(u) == RCallLen(v)
  {
    if u[0] == 'R' {
      var w := Run(u, 1, IsSpace);
      assert !IsSpace(u[c]);
      assert 1 + w <= c;
      RunAgree(u, v, 1, IsSpace);
      if u[1 + w] == '(' {
        var b := Run(u, 2 + w, NotClose);
        assert !NotClose(u[c]);
        assert 2 + w + b == c;
        RunAgree(u, v, 2 + w, NotClose);
      }
    }
  }

  /** An R-call match ends at the first `)` of the text. */
  lemma {:induction false} RCallEndsAtFirstClose(s: string)
    requires RCallLen(s) > 0
    ensures forall j :: 0 <= j < RCallLen(s) - 1 ==> s[j] != ')'
  {
    var w := Run(s, 1, IsSpace);
    var b := Run(s, 2 + w, NotClose);
    assert RCallLen(s) == 3 + w + b;
  }

  /** Text without `)` holds no R-call and is not rewritten. */
  lemma {:induction false} AttachWithoutClose(s: string)
    requires ')' !in s
    ensures AttachResistance(s) == s
    decreases |s|
  {
    if |s| > 0 {
      assert RCallLen(s) == 0;
      assert ')' !in s[1..] by {
        assert forall j :: 0 <= j < |s| - 1 ==> s[1..][j] == s[j + 1];
      }
      AttachWithoutClose(s[1..]);
    }
  }

  /** The text up to and including its first `)`, at `c`, is left alone. */
  lemma {:induction false} AttachKeepsFirstGroup(s: string, c: nat)
    requires c < |s| && s[c] == ')' && forall j :: 0 <= j < c ==> s[j] != ')'
    ensures c < |AttachResistance(s)| && forall j :: 0 <= j <= c ==> AttachResistance(s)[j] == s[j]
    decreases |s|
  {
    if RCallLen(s) > 0 {
      FirstGroupIsCall(s, c);
    } else if c > 0 {
      AttachKeepsFirstGroup(s[1..], c - 1);
      FirstGroupAfterPlain(s, c);
    }
  }

  /** An R-call at the start ends at the first `)` and is copied whole. */
  lemma {:induction false} FirstGroupIsCall(s: string, c: nat)
    requires c < |s| && s[c] == ')' && forall j :: 0 <= j < c ==> s[j] != ')'
    requires RCallLen(s) > 0
    ensures c < |AttachResistance(s)| && forall j :: 0 <= j <= c ==> AttachResistance(s)[j] == s[j]
  {
    var n := RCallLen(s);
    RCallEndsAtFirstClose(s);
    assert n - 1 == c;
    AttachAtCall(s);
    PrefixOfConcat(s, n, Accessor + AttachResistance(s[n..]));
  }

  /** The rewrite at an R-call. */
  lemma {:induction false} AttachAtCall(s: string)
    requires RCallLen(s) > 0
    ensures AttachResistance(s) == s[..RCallLen(s)] + (Accessor + AttachResistance(s[RCallLen(s)..]))
  {
  }

  lemma {:induction false} PrefixOfConcat(s: string, n: nat, t: string)
    requires n <= |s|
    ensures forall j :: 0 <= j < n ==> (s[..n] + t)[j] == s[j]
  {
  }

  /** A character that starts no R-call is copied, and the rest follows it. */
  lemma {:induction false} FirstGroupAfterPlain(s: string, c: nat)
    requires 0 < c < |s| && RCallLen(s) == 0
    requires c - 1 < |AttachResistance(s[1..])|
    requires forall j :: 0 <= j <= c - 1 ==> AttachResistance(s[1..])[j] == s[1..][j]
    ensures c < |AttachResistance(s)| && forall j :: 0 <= j <= c ==> AttachResistance(s)[j] == s[j]
  {
    var r := AttachResistance(s);
    assert r == [s[0]] + AttachResistance(s[1..]);
  }

  /** Where the text holds no R-call at its start, the rewritten text holds none either. */
  lemma {:induction false} AttachKeepsNoCall(s: string)
    requires RCallLen(s) == 0
    ensures RCallLen(AttachResistance(s)) == 0
  {
    match FirstIndexOf(s, ')')
    case Some(c) =>
      assert forall j :: 0 <= j < c ==> s[j] == s[..c][j];
      AttachKeepsFirstGroup(s, c);
      RCallLenAgree(s, AttachResistance(s), c);
    case None =>
      AttachWithoutClose(s);
  }

  /** Removing the accessors the rewrite inserted gives the text back. */
  lemma {:induction false} DetachAttach(s: string)
    ensures DetachResistance(AttachResistance(s)) == s
    decreases |s|
  {
    if |s| > 0 {
      var n := RCallLen(s);
      if n > 0 {
        DetachAttach(s[n..]);
        DetachAfterCall(s);
      } else {
        DetachAttach(s[1..]);
        DetachAfterPlain(s);
      }
    }
  }

  /** An R-call and its accessor are taken off together. */
  lemma {:induction false} DetachAfterCall(s: string)
    requires RCallLen(s) > 0
    requires DetachResistance(AttachResistance(s[RCallLen(s)..])) == s[RCallLen(s)..]
    ensures DetachResistance(AttachResistance(s)) == s
  {
    var n := RCallLen(s);
    var head, rest := s[..n], s[n..];
    var tail := AttachResistance(rest);
    AttachAtCall(s);
    RCallPrefix(s);
    DetachAtCall(head, tail);
    calc {
      DetachResistance(AttachResistance(s));
      DetachResistance(head + (Accessor + tail));
      head + DetachResistance(tail);
      head + rest;
      { assert s == head + rest; }
      s;
    }
  }

  lemma {:induction false} DetachAtCall(t: string, tail: string)
    requires IsRCall(t)
    ensures DetachResistance(t + (Accessor + tail)) == t + DetachResistance(tail)
  {
    var r := t + (Accessor + tail);
    CallThenAccessor(t, tail);
    DetachStep(r, |t|, t, tail);
  }

  /** The shape of an R-call followed by the accessor. */
  lemma {:induction false} CallThenAccessor(t: string, tail: string)
    requires IsRCall(t)
    ensures var r := t + (Accessor + tail);
      RCallLen(r) == |t| && Accessor <= r[|t|..] && r[|t| + |Accessor|..] == tail && r[..|t|] == t
  {
    var r := t + (Accessor + tail);
    RCallAppend(t, Accessor + tail);
    assert r[|t|..] == Accessor + tail;
  }

  /** One step of removing the accessor. */
  lemma {:induction false} DetachStep(r: string, n: nat, head: string, rest: string)
    requires 0 < n == RCallLen(r) && Accessor <= r[n..]
    requires head == r[..n] && rest == r[n + |Accessor|..]
    ensures DetachResistance(r) == head + DetachResistance(rest)
  {
  }

  /** A character that starts no R-call is copied back. */
  lemma {:induction false} DetachAfterPlain(s: string)
    requires |s| > 0 && RCallLen(s) == 0
    requires DetachResistance(AttachResistance(s[1..])) == s[1..]
    ensures DetachResistance(AttachResistance(s)) == s
  {
    var r := AttachResistance(s);
    AttachKeepsNoCall(s);
    assert r == [s[0]] + AttachResistance(s[1..]);
  }

  /** Text without `R` holds no R-call and is copied through unchanged. */
  lemma {:induction false} AttachPlainPrefix(p: string, u: string)
    requires 'R' !in p
    ensures AttachResistance(p + u) == p + AttachResistance(u)
    decreases |p|
  {
    if |p| > 0 {
      PlainHead(p, u);
      AttachPlainPrefix(p[1..], u);
      assert p == [p[0]] + p[1..];
    } else {
      assert p + u == u;
    }
  }

  /** One step of the rewrite over a character that starts no R-call. */
  lemma {:induction false} PlainHead(p: string, u: string)
    requires 'R' !in p && |p| > 0
    ensures 'R' !in p[1..]
    ensures AttachResistance(p + u) == [p[0]] + AttachResistance(p[1..] + u)
  {
    var s := p + u;
    assert s[0] == p[0] && p[0] != 'R';
    assert s[1..] == p[1..] + u;
    assert forall j :: 0 <= j < |p| - 1 ==> p[1..][j] == p[j + 1];
  }

  /** Every R-call gets the accessor. */
  lemma {:induction false} AttachAfterCall(t: string, u: string)
    requires IsRCall(t)
    ensures AttachResistance(t + u) == t + Accessor + AttachResistance(u)
  {
    RCallAppend(t, u);
    assert (t + u)[..|t|] == t && (t + u)[|t|..] == u;
  }

  /** `Calculator.parse`: the empty line gives the empty expression without
      tokenising; otherwise the tokens of the line are parsed and the R-calls
      in the result get the accessor. Python rejects the tokenizer's pattern
      when the operator table contributes no character. */
  function Parse(expr: string, ops: OpTable): (r: Result<string, ParseError>)
    ensures |expr| == 0 ==> r == Ok("")
    ensures |expr| > 0 && OpChars(ops) == {} ==> r == Err(InvalidPattern)
    ensures r.Ok? && |expr| > 0 ==> ParseTokens(Tokenize(expr, OpChars(ops)), ops) == Ok(DetachResistance(r.value))
    ensures |expr| > 0 && OpChars(ops) != {} ==>
      (r == Err(UnboundLocal) <==> EndsWithOpen(Tokenize(expr, OpChars(ops))))
    ensures |expr| > 0 && OpChars(ops) != {} ==> r == WithAccessor(ParseTokens(Tokenize(expr, OpChars(ops)), ops))
  {
    if |expr| == 0 then Ok("")
    else if OpChars(ops) == {} then Err(InvalidPattern)
    else
      var toks := Tokenize(expr, OpChars(ops));
      WithAccessor(ParseTokens(toks, ops))
  }

  /** The `re.sub` step of `Calculator.parse` on what `_parse_tokens`
      gave: a failure passes through, an expression gets the accessor. */
  function WithAccessor(inter: Result<string, ParseError>): (r: Result<string, ParseError>)
    ensures inter.Err? ==> r == inter
    ensures r.Ok? <==> inter.Ok?
    ensures r.Ok? ==> DetachResistance(r.value) == inter.value
    ensures r.Ok? ==> r.value == AttachResistance(inter.value)
  {
    if inter.Err? then inter
    else
      DetachAttach(inter.value);
      Ok(AttachResistance(inter.value))
  }

  /** Symbols of one punctuation character other than the parentheses make a
      character class the tokenizer reads unambiguously. */
  lemma {:induction false} CleanSymbols(ops: OpTable)
    requires SingleCharKeys(ops)
    requires forall k :: k in ops ==> !IsWordChar(k[0]) && !IsSpace(k[0]) && k[0] != '(' && k[0] != ')'
    ensures CleanOpChars(OpChars(ops))
  {
    forall c | c in OpChars(ops)
      ensures !IsWordChar(c) && !IsSpace(c) && c != '(' && c != ')'
    {
      OpCharsOfSingleCharKeys(ops, c);
      assert [c][0] == c;
    }
  }

  /** A table with a symbol of one character has an operator character. */
  lemma {:induction false} SomeOpChar(ops: OpTable)
    requires SingleCharKeys(ops) && ops != map[]
    ensures OpChars(ops) != {}
  {
    var k :| k in ops;
    assert k[0] in OpChars(ops);
  }

  /** The lexemes of a well-formed list: every operator symbol is an
      operator token of the table's character class. */
  lemma {:induction false} AlternatingLexemes(toks: seq<string>, ops: OpTable)
    requires SingleCharKeys(ops) && Alternating(toks, ops)
    requires forall i :: 0 <= i < |toks| && i % 2 == 0 ==> IsLexeme(toks[i], OpChars(ops))
    ensures forall i :: 0 <= i < |toks| ==> IsLexeme(toks[i], OpChars(ops))
  {
    forall i | 0 <= i < |toks| && i % 2 == 1
      ensures IsOpToken(toks[i], OpChars(ops))
    {
      OpCharsOfSingleCharKeys(ops, toks[i][0]);
      assert toks[i] == [toks[i][0]];
    }
  }

  /** A well-formed list of lexemes written with single spaces parses to its
      reference reading, with the accessor after every R-call. */
  lemma {:induction false} ParseWellFormed(toks: seq<string>, ops: OpTable)
    requires SingleCharKeys(ops) && ops != map[] && CleanOpChars(OpChars(ops))
    requires Alternating(toks, ops) && "(" !in toks
    requires forall i :: 0 <= i < |toks| && i % 2 == 0 ==> IsLexeme(toks[i], OpChars(ops))
    ensures Parse(Join(toks), ops) == Ok(AttachResistance(Ref(toks, ops)))
  {
    SomeOpChar(ops);
    AlternatingLexemes(toks, ops);
    TokenizeJoin(toks, OpChars(ops));
    ParseTokensRef(toks, ops);
    JoinStart(toks);
  }

  /** A table the tokenizer reads unambiguously: symbols of one punctuation
      character, at least one of them. */
  predicate UsableTable(ops: OpTable) {
    SingleCharKeys(ops) && ops != map[] && CleanOpChars(OpChars(ops))
  }

  /** An R-call, a name or a number: the tokens that stand for a value. */
  predicate IsAtom(t: string) {
    IsRCall(t) || IsIdent(t) || IsNumber(t)
  }

  /** Under such a table an atom is an operand and a lexeme: it starts with a
      word character, which no operator symbol does. */
  lemma {:induction false} AtomIsOperand(ops: OpTable, t: string)
    requires UsableTable(ops) && IsAtom(t)
    ensures IsOperand(t, ops) && t != "(" && IsLexeme(t, OpChars(ops))
  {
    assert IsWordChar(t[0]);
    OpCharsOfSingleCharKeys(ops, t[0]);
    assert |t| == 1 ==> t == [t[0]];
  }

  /** No symbol of such a table is `(`. */
  lemma {:induction false} OpenIsNoSymbol(ops: OpTable)
    requires UsableTable(ops)
    ensures "(" !in ops
  {
    OpCharsOfSingleCharKeys(ops, '(');
    assert "(" == ['('];
  }

  /** Atoms alternating with symbols of such a table, written with single
      spaces, parse to their reference reading. */
  lemma {:induction false} ParseAlternatingAtoms(toks: seq<string>, ops: OpTable)
    requires UsableTable(ops) && |toks| % 2 == 1
    requires forall i :: 0 <= i < |toks| ==> if i % 2 == 0 then IsAtom(toks[i]) else toks[i] in ops
    ensures Alternating(toks, ops)
    ensures Parse(Join(toks), ops) == Ok(AttachResistance(Ref(toks, ops)))
  {
    OpenIsNoSymbol(ops);
    forall i | 0 <= i < |toks| && i % 2 == 0
      ensures IsOperand(toks[i], ops) && toks[i] != "(" && IsLexeme(toks[i], OpChars(ops))
    {
      AtomIsOperand(ops, toks[i]);
    }
    assert forall i :: 0 <= i < |toks| ==> toks[i] != "(";
    ParseWellFormed(toks, ops);
  }

  /** `x o y` over atoms, written with single spaces, parses to the
      operator's template filled with the two atoms. */
  lemma {:induction false} ParseThreeAtoms(ops: OpTable, x: string, o: string, y: string)
    requires UsableTable(ops) && IsAtom(x) && IsAtom(y) && o in ops
    ensures Parse(x + (" " + o + " ") + y, ops) == Ok(AttachResistance(Fill(ops[o].template, x, y)))
  {
    var toks := [x, o, y];
    assert forall i :: 0 <= i < |toks| ==> if i % 2 == 0 then IsAtom(toks[i]) else toks[i] in ops by {
      assert toks[0] == x && toks[1] == o && toks[2] == y;
    }
    ParseAlternatingAtoms(toks, ops);
    JoinThree(x, o, y);
    RefOfThree(x, o, y, ops);
  }

  /** `x o1 y o2 z` over atoms, written with single spaces, parses to its
      reference reading. */
  lemma {:induction false} ParseFiveAtoms(ops: OpTable, x: string, o1: string, y: string, o2: string, z: string)
    requires UsableTable(ops) && IsAtom(x) && IsAtom(y) && IsAtom(z) && o1 in ops && o2 in ops
    ensures Alternating([x, o1, y, o2, z], ops)
    ensures Parse(x + (" " + o1 + " ") + y + (" " + o2 + " ") + z, ops) ==
      Ok(AttachResistance(Ref([x, o1, y, o2, z], ops)))
  {
    var toks := [x, o1, y, o2, z];
    assert forall i :: 0 <= i < |toks| ==> if i % 2 == 0 then IsAtom(toks[i]) else toks[i] in ops by {
      assert toks[0] == x && toks[1] == o1 && toks[2] == y && toks[3] == o2 && toks[4] == z;
    }
    ParseAlternatingAtoms(toks, ops);
    JoinFive(x, o1, y, o2, z);
  }

  lemma {:induction false} JoinThree(x: string, o: string, y: string)
    ensures Join([x, o, y]) == x + (" " + o + " ") + y
  {
    assert [x, o, y][1..] == [o, y] && [o, y][1..] == [y];
    assert Join([o, y]) == o + " " + y;
  }

  lemma {:induction false} JoinFive(x: string, o1: string, y: string, o2: string, z: string)
    ensures Join([x, o1, y, o2, z]) == x + (" " + o1 + " ") + y + (" " + o2 + " ") + z
  {
    assert [x, o1, y, o2, z][1..] == [o1, y, o2, z];
    assert [o1, y, o2, z][1..] == [y, o2, z];
    assert [y, o2, z][1..] == [o2, z];
    assert [o2, z][1..] == [z];
    assert Join([o2, z]) == o2 + " " + z;
    assert Join([y, o2, z]) == y + " " + (o2 + " " + z);
    assert Join([o1, y, o2, z]) == o1 + " " + (y + " " + (o2 + " " + z));
  }
}

=== FILE: circuits.dfy ===
/** The resistor value type of `circuits.py` and the Python arithmetic that
    `quick_parrel` performs on its operands. Python ints and floats are
    idealised as mathematical reals. */
module Circuits {

  import opened Results
  import opened Errors

  /** The run-time kinds of operand the Resistor operators dispatch on: a
      Resistor (which only carries its resistance), a Python number, or any
      other object. Values are immutable, so no operator can change an operand. */
  datatype Value = Res(resistance: real) | Num(n: real) | Other

  const AddMessage := "Can only add another Resistor"
  const MulMessage := "Can only multiply with another Resistor"

  /** `Resistor.__add__`: series combination. */
  function ResistorAdd(self: real, other: Value): (r: Result<Value, PyError>)
    ensures r.Ok? <==> other.Res?
    ensures r.Ok? ==> r.value.Res? && r.value.resistance == self + other.resistance
    ensures r.Err? ==> r.error == ValueError(AddMessage)
  {
    if other.Res? then Ok(Res(self + other.resistance))
    else Err(ValueError(AddMessage))
  }

  /** `Resistor.__mul__`: parallel combination with another Resistor,
      scaling by a number, and an error for anything else. */
  function ResistorMul(self: real, other: Value): (r: Result<Value, PyError>)
    ensures other.Other? ==> r == Err(ValueError(MulMessage))
    ensures other.Res? ==> (r.Ok? <==> self + other.resistance != 0.0)
    ensures other.Res? && r.Err? ==> r.error == ZeroDivisionError
    ensures other.Res? && r.Ok? ==>
      r.value.Res? && r.value.resistance * (self + other.resistance) == self * other.resistance
    ensures other.Num? ==> r.Ok? && r.value.Res? && r.value.resistance == self * other.n
  {
    match other
    case Res(b) =>
      if self + b == 0.0 then Err(ZeroDivisionError)
      else Ok(Res((self * b) / (self + b)))
    case Num(k) => Ok(Res(self * k))
    case Other => Err(ValueError(MulMessage))
  }

  /** Python's binary `+` on two operands: a Resistor on the left dispatches
      to `Resistor.__add__`; numbers add; a number plus a Resistor finds no
      `__radd__` and raises TypeError. */
  function PyAdd(x: Value, y: Value): (r: Result<Value, PyError>)
    ensures x.Num? && y.Num? ==> r == Ok(Num(x.n + y.n))
    ensures x.Num? && !y.Num? ==> r == Err(TypeError)
    ensures x.Res? ==> r == ResistorAdd(x.resistance, y)
  {
    match x
    case Res(a) => ResistorAdd(a, y)
    case Num(_) => if y.Num? then Ok(Num(x.n + y.n)) else Err(TypeError)
    case Other => Err(TypeError)
  }

  /** Python's binary `*`, dispatching to `Resistor.__mul__` when the left
      operand is a Resistor. */
  function PyMul(x: Value, y: Value): (r: Result<Value, PyError>)
    ensures x.Num? && y.Num? ==> r == Ok(Num(x.n * y.n))
    ensures x.Num? && !y.Num? ==> r == Err(TypeError)
    ensures x.Res? ==> r == ResistorMul(x.resistance, y)
  {
    match x
    case Res(a) => ResistorMul(a, y)
    case Num(_) => if y.Num? then Ok(Num(x.n * y.n)) else Err(TypeError)
    case Other => Err(TypeError)
  }

  /** Python's `/`: only numbers divide (Resistor has no `__truediv__`), and a
      zero divisor raises ZeroDivisionError. */
  function PyDiv(x: Value, y: Value): (r: Result<Value, PyError>)
    ensures r.Ok? <==> x.Num? && y.Num? && y.n != 0.0
    ensures r.Ok? ==> r.value == Num(x.n / y.n)
    ensures x.Num? && y.Num? && y.n == 0.0 ==> r == Err(ZeroDivisionError)
  {
    if x.Num? && y.Num? then
      if y.n == 0.0 then Err(ZeroDivisionError) else Ok(Num(x.n / y.n))
    else Err(TypeError)
  }

  /** `quick_parrel(r1, r2)`: `(r1 * r2) / (r1 + r2)`, evaluated left to right. */
  function QuickParrel(r1: Value, r2: Value): (r: Result<Value, PyError>)
    ensures r1.Num? && r2.Num? ==> (r.Ok? <==> r1.n + r2.n != 0.0)
    ensures r1.Num? && r2.Num? && r.Err? ==> r.error == ZeroDivisionError
    ensures r1.Num? && r2.Num? && r.Ok? ==>
      r.value.Num? && r.value.n * (r1.n + r2.n) == r1.n * r2.n
    ensures r1.Res? || r2.Res? ==> r.Err?
  {
    var product :- PyMul(r1, r2);
    var sum :- PyAdd(r1, r2);
    PyDiv(product, sum)
  }

  /** Series combination commutes and associates on the resistance. */
  lemma {:induction false} SeriesCommutesAndAssociates(a: real, b: real, c: real)
    ensures ResistorAdd(a, Res(b)) == ResistorAdd(b, Res(a))
    ensures ResistorAdd(a + b, Res(c)) == ResistorAdd(a, Res(b + c))
  {
  }

  /** For positive resistances the parallel combination of two Resistors is
      positive, below each of them, and its conductance is the sum of theirs. */
  lemma {:induction false} ParallelConductancesAdd(a: real, b: real)
    requires 0.0 < a && 0.0 < b
    ensures ResistorMul(a, Res(b)).Ok?
    ensures var p := ResistorMul(a, Res(b)).value.resistance;
      0.0 < p < a && p < b && 1.0 / p == 1.0 / a + 1.0 / b
  {
    var p := a * b / (a + b);
    assert p * (a + b) == a * b;
    assert 0.0 < a * b;
    assert 0.0 < p;
    assert p < a by {
      assert p * (a + b) < a * (a + b);
    }
    assert p < b by {
      assert p * (a + b) < b * (a + b);
    }
    calc {
      1.0 / a + 1.0 / b;
      (a + b) / (a * b);
      1.0 / p;
    }
  }

  /** `quick_parrel` on two numbers computes the same magnitude as the
      Resistor-by-Resistor product. */
  lemma {:induction false} QuickParrelMatchesResistorProduct(a: real, b: real)
    requires a + b != 0.0
    ensures QuickParrel(Num(a), Num(b)).Ok? && ResistorMul(a, Res(b)).Ok?
    ensures QuickParrel(Num(a), Num(b)).value.n == ResistorMul(a, Res(b)).value.resistance
  {
  }
}

=== FILE: factors.dfy ===
/** `factors.py`: the relative ("percentage") error of a measurement. */
module Factors {

  import opened Results
  import opened Errors

  const ZeroTruthMessage := "True value cannot be zero for percentage error calculation."

  function Abs(x: real): (r: real)
    ensures r >= 0.0 && (r == x || r == -x)
  {
    if x < 0.0 then -x else x
  }

  /** `epercent(value, true)`: `abs((value - true) / true)`, or ValueError
      when the true value is zero. */
  function EPercent(value: real, truth: real): (r: Result<real, PyError>)
    ensures r.Err? <==> truth == 0.0
    ensures r.Err? ==> r.error == ValueError(ZeroTruthMessage)
    ensures r.Ok? ==> r.value >= 0.0
    ensures r.Ok? ==> r.value * Abs(truth) == Abs(value - truth)
    ensures r.Ok? ==> (r.value == 0.0 <==> value == truth)
  {
    if truth == 0.0 then Err(ValueError(ZeroTruthMessage))
    else Ok(Abs((value - truth) / truth))
  }

  /** The error depends only on the ratio of the two quantities: rescaling
      both (say from ohms to kilo-ohms) leaves it unchanged, and so does
      reflecting the measurement about the true value. */
  lemma {:induction false} ErrorIsScaleFreeAndSymmetric(value: real, truth: real, c: real)
    requires c != 0.0
    ensures EPercent(c * value, c * truth) == EPercent(value, truth)
    ensures EPercent(2.0 * truth - value, truth) == EPercent(value, truth)
  {
    if truth != 0.0 {
      assert (c * value - c * truth) / (c * truth) == (value - truth) / truth;
      assert (2.0 * truth - value - truth) / truth == -((value - truth) / truth);
    }
  }
}

=== FILE: operators.dfy ===
/** The operator table of a calculator: each operator symbol has a
    `str.format` template with the placeholders `{left}` and `{right}` and a
    precedence, a larger number binding tighter. */
module Operators {

  /** A template `pre{left}mid{right}post`. */
  datatype Template = Template(pre: string, mid: string, post: string)

  /** `template.format(left=left, right=right)` */
  function Fill(t: Template, left: string, right: string): (r: string)
    ensures |r| >= |left| + |right|
  {
    t.pre + left + t.mid + right + t.post
  }

  datatype OpDef = OpDef(template: Template, prec: int)

  /** `self.OPERATORS`: operator symbol to definition. */
  type OpTable = map<string, OpDef>

  /** The characters of the operator symbols, which the tokenizer puts in
      its operator character class. */
  function OpChars(ops: OpTable): set<char>
  {
    set k, i | k in ops && 0 <= i < |k| :: k[i]
  }

  /** Every operator symbol is a single character, so that a tokenizer
      operator token is exactly an operator symbol. */
  predicate SingleCharKeys(ops: OpTable) {
    forall k :: k in ops ==> |k| == 1
  }

  /** With single-character symbols, a one-character string is an operator
      symbol exactly when its character is in the operator character class. */
  lemma {:induction false} OpCharsOfSingleCharKeys(ops: OpTable, c: char)
    requires SingleCharKeys(ops)
    ensures c in OpChars(ops) <==> [c] in ops
  {
    if c in OpChars(ops) {
      var k, i :| k in ops && 0 <= i < |k| && k[i] == c;
      assert k == [c];
    }
    if [c] in ops {
      assert [c][0] == c;
    }
  }

  /** `set(op['prec'] for op in self.OPERATORS.values())` */
  function Precs(ops: OpTable): set<int>
  {
    set k | k in ops :: ops[k].prec
  }

  /** An element of a non-empty set. */
  lemma {:induction false} Element(s: set<int>) returns (y: int)
    requires s != {}
    ensures y in s
  {
    if forall x :: x !in s {
      assert false;
    }
    y :| y in s;
  }

  lemma {:induction false} MaxExists(s: set<int>)
    requires s != {}
    ensures exists m :: m in s && forall x :: x in s ==> x <= m
    decreases |s|
  {
    var y := Element(s);
    var rest := s - {y};
    assert s == rest + {y};
    if rest != {} {
      MaxExists(rest);
      var m :| m in rest && forall x :: x in rest ==> x <= m;
      if y > m {
        assert forall x :: x in s ==> x <= y;
      } else {
        assert forall x :: x in s ==> x <= m;
      }
    } else {
      assert forall x :: x in s ==> x <= y;
    }
  }

  function MaxOf(s: set<int>): (m: int)
    requires s != {}
    ensures m in s && forall x :: x in s ==> x <= m
  {
    MaxExists(s);
    var m :| m in s && forall x :: x in s ==> x <= m;
    m
  }

  /** `sorted(s, reverse=True)` for a set of integers. */
  function DescLevels(s: set<int>): seq<int>
    decreases |s|
  {
    if s == {} then []
    else
      var m := MaxOf(s);
      [m] + DescLevels(s - {m})
  }

  /** `sorted(s, reverse=True)` holds every element of `s` once, in strictly
      decreasing order. */
  lemma {:induction false} DescLevelsSpec(s: set<int>)
    ensures forall i, j :: 0 <= i < j < |DescLevels(s)| ==> DescLevels(s)[i] > DescLevels(s)[j]
    ensures forall x :: x in s <==> x in DescLevels(s)
    ensures |DescLevels(s)| == |s|
    decreases |s|
  {
    if s != {} {
      var m := MaxOf(s);
      var rest := DescLevels(s - {m});
      DescLevelsSpec(s - {m});
      var r := DescLevels(s);
      assert r == [m] + rest;
      forall i, j | 0 <= i < j < |r|
        ensures r[i] > r[j]
      {
        assert r[j] == rest[j - 1] && rest[j - 1] in s - {m};
      }
      forall x
        ensures x in s <==> x in r
      {
        assert x in r <==> x == m || x in rest;
      }
    }
  }

  /** The precedence levels the parser visits, highest first. */
  function Levels(ops: OpTable): seq<int>
  {
    DescLevels(Precs(ops))
  }

  /** The levels strictly descend, and they are exactly the precedences of
      the table's operators. */
  lemma {:induction false} LevelsSpec(ops: OpTable)
    ensures forall i, j :: 0 <= i < j < |Levels(ops)| ==> Levels(ops)[i] > Levels(ops)[j]
    ensures forall k :: k in ops ==> ops[k].prec in Levels(ops)
    ensures forall i :: 0 <= i < |Levels(ops)| ==> exists k :: k in ops && ops[k].prec == Levels(ops)[i]
  {
    var r := Levels(ops);
    DescLevelsSpec(Precs(ops));
    forall k | k in ops
      ensures ops[k].prec in r
    {
      assert ops[k].prec in Precs(ops);
    }
    forall i | 0 <= i < |r|
      ensures exists k :: k in ops && ops[k].prec == r[i]
    {
      assert r[i] in Precs(ops);
    }
  }
}

=== FILE: parser.dfy ===
/** `Calculator._parse_tokens`: rewrites a token list into a Python
    expression string. First the parenthesis loop replaces the innermost
    group, repeatedly, by the parsed text of its contents in parentheses;
    then, for each precedence level from the highest down, the first
    operator of that level is folded with its neighbours into its template,
    and the scan starts again from the front until the level has no
    operator left. */
module Parser {

  import opened Results
  import opened Text
  import opened Operators

  /** How `_parse_tokens` can fail to return a string. */
  datatype ParseError =
    | UnboundLocal      // `UnboundLocalError`: the loop variable `end` was never bound
    | IndexOutOfRange   // `IndexError`: an operator has no right operand
    | Diverges          // an operator at the front: the scan loop never ends
    | InvalidPattern    // `re.error`: no operator character, so the tokenizer's character class is empty

  /** The token is an operator of precedence `p`. */
  predicate AtPrec(t: string, ops: OpTable, p: int) {
    t in ops && ops[t].prec == p
  }

  /** The first index at or after `k` holding an operator of precedence `p`. */
  function FirstAtPrec(tokens: seq<string>, ops: OpTable, p: int, k: nat): (r: Option<nat>)
    requires k <= |tokens|
    ensures r.Some? ==> k <= r.value < |tokens| && AtPrec(tokens[r.value], ops, p)
    ensures r.Some? ==> forall j :: k <= j < r.value ==> !AtPrec(tokens[j], ops, p)
    ensures r.None? ==> forall j :: k <= j < |tokens| ==> !AtPrec(tokens[j], ops, p)
    decreases |tokens| - k
  {
    if k == |tokens| then None
    else if AtPrec(tokens[k], ops, p) then Some(k)
    else FirstAtPrec(tokens, ops, p, k + 1)
  }

  /** Replaces the operator at `i` and its two neighbours by the filled template. */
  function Fold(tokens: seq<string>, ops: OpTable, i: nat): (r: seq<string>)
    requires 0 < i < |tokens| - 1 && tokens[i] in ops
    ensures |r| == |tokens| - 2
  {
    tokens[..i - 1] + [Fill(ops[tokens[i]].template, tokens[i - 1], tokens[i + 1])] + tokens[i + 2..]
  }

  /** The list update `tokens[:i-1] + [new_expr] + tokens[i+2:]` exactly as
      Python evaluates it, including `i == 0`, where `tokens[i-1]` is the last
      token and `tokens[:i-1]` is every token but the last. */
  function PyFold(tokens: seq<string>, ops: OpTable, i: nat): (r: seq<string>)
    requires i + 1 < |tokens| && tokens[i] in ops
  {
    var left := tokens[if i == 0 then |tokens| - 1 else i - 1];
    var head := if i == 0 then tokens[..|tokens| - 1] else tokens[..i - 1];
    head + [Fill(ops[tokens[i]].template, left, tokens[i + 1])] + tokens[i + 2..]
  }

  /** Away from the front, Python's update is the fold. */
  lemma {:induction false} PyFoldInside(tokens: seq<string>, ops: OpTable, i: nat)
    requires 0 < i < |tokens| - 1 && tokens[i] in ops
    ensures PyFold(tokens, ops, i) == Fold(tokens, ops, i)
  {
  }

  /** At the front, Python's update keeps the operator in first place and does
      not shorten the list, so the restarted scan finds it there again: the
      `while` loop of a precedence level never ends. */
  lemma {:induction false} PyFoldAtFrontRepeats(tokens: seq<string>, ops: OpTable, p: int)
    requires |tokens| >= 2 && AtPrec(tokens[0], ops, p)
    ensures |PyFold(tokens, ops, 0)| >= |tokens|
    ensures FirstAtPrec(PyFold(tokens, ops, 0), ops, p, 0) == Some(0)
  {
    var r := PyFold(tokens, ops, 0);
    assert r[0] == tokens[0];
  }

  /** One precedence level: fold the first operator of precedence `p` until
      none is left. */
  function ReduceLevel(tokens: seq<string>, ops: OpTable, p: int): (r: Result<seq<string>, ParseError>)
    ensures r.Ok? ==> forall j :: 0 <= j < |r.value| ==> !AtPrec(r.value[j], ops, p)
    ensures r.Ok? ==> |r.value| <= |tokens| && (|tokens| - |r.value|) % 2 == 0
    ensures r.Ok? && |tokens| > 0 ==> |r.value| > 0
    ensures (forall j :: 0 <= j < |tokens| ==> !AtPrec(tokens[j], ops, p)) ==> r == Ok(tokens)
    ensures r.Err? ==> exists j :: 0 <= j < |tokens| && AtPrec(tokens[j], ops, p)
    ensures r.Err? ==> r.error != UnboundLocal
    decreases |tokens|
  {
    match FirstAtPrec(tokens, ops, p, 0)
    case None => Ok(tokens)
    case Some(i) =>
      if i == |tokens| - 1 then Err(IndexOutOfRange)
      else if i == 0 then Err(Diverges)
      else ReduceLevel(Fold(tokens, ops, i), ops, p)
  }

  /** Where the first operator of the level decides the outcome: last in the
      list, the lookup past its end raises `IndexError`; first in a longer
      list, the scan never ends. */
  lemma {:induction false} ReduceLevelEdges(tokens: seq<string>, ops: OpTable, p: int)
    ensures FirstAtPrec(tokens, ops, p, 0) == Some(|tokens| - 1) ==> ReduceLevel(tokens, ops, p) == Err(IndexOutOfRange)
    ensures |tokens| >= 2 && FirstAtPrec(tokens, ops, p, 0) == Some(0) ==> ReduceLevel(tokens, ops, p) == Err(Diverges)
  {
  }

  /** The precedence loop over `levels`, in order. */
  function ReduceLevels(tokens: seq<string>, ops: OpTable, levels: seq<int>): (r: Result<seq<string>, ParseError>)
    ensures r.Ok? && |tokens| > 0 ==> |r.value| > 0
    ensures r.Err? ==> r.error != UnboundLocal
    ensures r.Ok? ==> |r.value| <= |tokens|
    ensures (forall j :: 0 <= j < |tokens| ==> tokens[j] !in ops) ==> r == Ok(tokens)
    decreases |levels|
  {
    if |levels| == 0 then Ok(tokens)
    else
      var next :- ReduceLevel(tokens, ops, levels[0]);
      ReduceLevels(next, ops, levels[1..])
  }

  /** The last token is `(`: the one input on which `end` stays unbound. */
  predicate EndsWithOpen(tokens: seq<string>) {
    |tokens| > 0 && tokens[|tokens| - 1] == "("
  }

  /** The number of `(` tokens. */
  function CountOpen(tokens: seq<string>): nat {
    multiset(tokens)["("]
  }

  /** The tokens a pass of the parenthesis loop replaces: `start` is the last
      `(`, and `end` the first `)` after it, or the last index if there is none. */
  datatype Span = Span(start: nat, end: nat)

  /** Finding the innermost group. The loop `for end in range(start + 1,
      len(tokens))` never runs when the last `(` is the last token, and `end`
      is then unbound. Because no `(` follows `start`, the `balance` counter
      stays 0 and the loop stops at the first `)`; without one it runs out
      with `end` at the last index. */
  function Innermost(tokens: seq<string>): (r: Result<Span, ParseError>)
    requires "(" in tokens
    ensures r.Err? <==> tokens[|tokens| - 1] == "("
    ensures r.Err? ==> r.error == UnboundLocal
    ensures r.Ok? ==> r.value.start < r.value.end < |tokens|
    ensures r.Ok? ==> tokens[r.value.start] == "(" && "(" !in tokens[r.value.start + 1..]
    ensures r.Ok? ==> ")" !in tokens[r.value.start + 1..r.value.end]
    ensures r.Ok? ==> tokens[r.value.end] == ")" || (r.value.end == |tokens| - 1 && ")" !in tokens[r.value.start + 1..])
  {
    var start := LastIndexOf(tokens, "(").value;
    if start == |tokens| - 1 then Err(UnboundLocal)
    else
      var after := tokens[start + 1..];
      match FirstIndexOf(after, ")")
      case Some(k) =>
        assert after[..k] == tokens[start + 1..start + 1 + k];
        Ok(Span(start, start + 1 + k))
      case None =>
        assert after[..|after| - 1] == tokens[start + 1..|tokens| - 1];
        Ok(Span(start, |tokens| - 1))
  }

  /** The group found from the last `(` and the first `)` after it. */
  lemma {:induction false} InnermostAt(tokens: seq<string>, start: nat, k: nat)
    requires start < |tokens| - 1 && LastIndexOf(tokens, "(") == Some(start)
    requires FirstIndexOf(tokens[start + 1..], ")") == Some(k)
    ensures "(" in tokens && Innermost(tokens) == Ok(Span(start, start + 1 + k))
  {
    assert LastIndexOf(tokens, "(").value == start;
  }

  /** Nothing inside an innermost group is `(`. */
  lemma {:induction false} GroupHasNoOpen(tokens: seq<string>, s: Span)
    requires s.start < s.end < |tokens| && "(" !in tokens[s.start + 1..]
    ensures "(" !in tokens[s.start + 1..s.end] && CountOpen(tokens[s.start + 1..s.end]) == 0
    ensures !EndsWithOpen(tokens[s.start + 1..s.end])
  {
    assert tokens[s.start + 1..s.end] == tokens[s.start + 1..][..s.end - s.start - 1];
  }

  /** `tokens[:start] + [f"({inner})"] + tokens[end+1:]`: one `(` fewer, one
      token or more fewer, and never a `(` at the end. */
  function Collapse(tokens: seq<string>, s: Span, inner: string): (r: seq<string>)
    requires s.start < s.end < |tokens| && tokens[s.start] == "(" && "(" !in tokens[s.start + 1..]
    ensures CountOpen(r) == CountOpen(tokens) - 1
    ensures |r| == |tokens| - (s.end - s.start) && |r| > 0
    ensures r[|r| - 1] != "("
  {
    var group := "(" + inner + ")";
    var a, b, c, d := tokens[..s.start], tokens[s.start + 1..s.end], tokens[s.end..s.end + 1], tokens[s.end + 1..];
    assert tokens == a + [tokens[s.start]] + b + c + d;
    assert tokens[s.start + 1..] == b + c + d;
    assert "(" !in b && "(" !in c && "(" !in d;
    assert group != "(" by {
      assert |group| >= 2;
    }
    var r := a + [group] + d;
    assert r[|r| - 1] == group || r[|r| - 1] in d;
    r
  }

  /** `_parse_tokens`. */
  function ParseTokens(tokens: seq<string>, ops: OpTable): (r: Result<string, ParseError>)
    ensures r == Err(UnboundLocal) <==> EndsWithOpen(tokens)
    ensures |tokens| == 0 ==> r == Ok("")
    decreases CountOpen(tokens), 1
  {
    var flat :- Unparen(tokens, ops);
    var reduced :- ReduceLevels(flat, ops, Levels(ops));
    Ok(if |reduced| == 0 then "" else reduced[0])
  }

  /** The parenthesis loop `while '(' in tokens`. */
  function Unparen(tokens: seq<string>, ops: OpTable): (r: Result<seq<string>, ParseError>)
    ensures r.Ok? ==> "(" !in r.value
    ensures r.Ok? ==> |r.value| <= |tokens| && (|r.value| == 0 <==> |tokens| == 0)
    ensures "(" !in tokens ==> r == Ok(tokens)
    ensures r == Err(UnboundLocal) <==> EndsWithOpen(tokens)
    decreases CountOpen(tokens), 0
  {
    if "(" !in tokens then Ok(tokens)
    else
      var s :- Innermost(tokens);
      var sub := tokens[s.start + 1..s.end];
      GroupHasNoOpen(tokens, s);
      var inner :- ParseTokens(sub, ops);
      var next := Collapse(tokens, s, inner);
      assert !EndsWithOpen(next);
      Unparen(next, ops)
  }

  /** The innermost group of a `(` with no `)` after it ends at the last token. */
  lemma {:induction false} InnermostUnclosed(tokens: seq<string>, start: nat)
    requires start < |tokens| - 1 && tokens[start] == "("
    requires forall j :: start < j < |tokens| ==> tokens[j] != "(" && tokens[j] != ")"
    ensures "(" in tokens && Innermost(tokens) == Ok(Span(start, |tokens| - 1))
    ensures "(" !in tokens[start + 1..]
  {
    assert "(" in tokens;
    var after := tokens[start + 1..];
    assert forall i :: 0 <= i < |after| ==> after[i] == tokens[start + 1 + i];
    assert "(" !in after && ")" !in after;
    assert tokens[|tokens| - 1] in after;
    var s := Innermost(tokens).value;
    assert s.start == start;
    assert s.end == |tokens| - 1;
  }

  /** A `(` with no `)` after it that is not the last token: the group runs
      to the last token but leaves it out, and the token is lost. */
  lemma {:induction false} UnclosedGroupDropsLastToken(tokens: seq<string>, ops: OpTable, start: nat)
    requires start < |tokens| - 1 && tokens[start] == "("
    requires forall j :: start < j < |tokens| ==> tokens[j] != "(" && tokens[j] != ")"
    ensures var sub := ParseTokens(tokens[start + 1..|tokens| - 1], ops);
      Unparen(tokens, ops) ==
        if sub.Ok? then Unparen(tokens[..start] + ["(" + sub.value + ")"], ops) else Err(sub.error)
  {
    InnermostUnclosed(tokens, start);
    UnparenStep(tokens, ops, start, |tokens| - 1);
    var sub := ParseTokens(tokens[start + 1..|tokens| - 1], ops);
    if sub.Ok? {
      CollapseAtEnd(tokens, Span(start, |tokens| - 1), sub.value);
    }
  }

  /** One pass of the parenthesis loop whose group parses to `inner`: the
      loop goes on with the collapsed list `next`. */
  lemma {:induction false} UnparenStepTo(tokens: seq<string>, ops: OpTable, start: nat, end: nat, inner: string, next: seq<string>)
    requires "(" in tokens && Innermost(tokens) == Ok(Span(start, end))
    requires ParseTokens(tokens[start + 1..end], ops) == Ok(inner)
    requires Collapse(tokens, Span(start, end), inner) == next
    ensures Unparen(tokens, ops) == Unparen(next, ops)
  {
    UnparenStep(tokens, ops, start, end);
  }

  lemma {:induction false} CollapseAtEnd(tokens: seq<string>, s: Span, inner: string)
    requires s.start < s.end == |tokens| - 1 && tokens[s.start] == "(" && "(" !in tokens[s.start + 1..]
    ensures Collapse(tokens, s, inner) == tokens[..s.start] + ["(" + inner + ")"]
  {
    assert tokens[|tokens|..] == [];
  }

  /** One pass of the parenthesis loop, unfolded. */
  lemma {:induction false} UnparenStep(tokens: seq<string>, ops: OpTable, start: nat, end: nat)
    requires "(" in tokens && Innermost(tokens) == Ok(Span(start, end))
    ensures var sub := ParseTokens(tokens[start + 1..end], ops);
      Unparen(tokens, ops) ==
        if sub.Ok? then Unparen(Collapse(tokens, Span(start, end), sub.value), ops) else Err(sub.error)
  {
    assert !Innermost(tokens).IsFailure();
  }


  /** If every level leaves the tokens alone or fails with `e`, and one of
      them fails, the precedence loop fails with `e`. */
  lemma {:induction false} ReduceLevelsFails(tokens: seq<string>, ops: OpTable, levels: seq<int>, e: ParseError)
    requires forall k :: 0 <= k < |levels| ==>
      ReduceLevel(tokens, ops, levels[k]) == Ok(tokens) || ReduceLevel(tokens, ops, levels[k]) == Err(e)
    requires exists k :: 0 <= k < |levels| && ReduceLevel(tokens, ops, levels[k]) == Err(e)
    ensures ReduceLevels(tokens, ops, levels) == Err(e)
    decreases |levels|
  {
    if ReduceLevel(tokens, ops, levels[0]) != Err(e) {
      var k :| 0 <= k < |levels| && ReduceLevel(tokens, ops, levels[k]) == Err(e);
      assert levels[1..][k - 1] == levels[k];
      ReduceLevelsFails(tokens, ops, levels[1..], e);
    }
  }

  /** The precedence of a symbol is one of the levels. */
  lemma {:induction false} LevelOf(ops: OpTable, o: string)
    requires o in ops
    ensures exists k :: 0 <= k < |Levels(ops)| && Levels(ops)[k] == ops[o].prec
  {
    LevelsSpec(ops);
    var k := FirstIndexOf(Levels(ops), ops[o].prec).value;
  }

  /** The flat tokens `t` go straight to the precedence loop. */
  lemma {:induction false} NoGroupParse(t: seq<string>, ops: OpTable)
    requires "(" !in t
    ensures ParseTokens(t, ops) ==
      match ReduceLevels(t, ops, Levels(ops))
      case Err(e) => Err(e)
      case Ok(reduced) => Ok(if |reduced| == 0 then "" else reduced[0])
  {
    assert Unparen(t, ops) == Ok(t);
  }

  /** An operator with nothing after it: `tokens[i+1]` raises `IndexError`. */
  lemma {:induction false} TrailingOperator(x: string, o: string, ops: OpTable)
    requires x !in ops && x != "(" && o in ops && o != "("
    ensures ParseTokens([x, o], ops) == Err(IndexOutOfRange)
  {
    PairFails([x, o], ops, o, IndexOutOfRange);
  }

  /** An operator in first place with an operand after it: the scan of its
      level never ends. */
  lemma {:induction false} LeadingOperator(o: string, x: string, ops: OpTable)
    requires x !in ops && x != "(" && o in ops && o != "("
    ensures ParseTokens([o, x], ops) == Err(Diverges)
  {
    PairFails([o, x], ops, o, Diverges);
  }

  /** An operand and an operator, in either order: the operator's level
      fails with `e` and every other level leaves the pair alone. */
  predicate FailingPair(t: seq<string>, ops: OpTable, o: string, e: ParseError) {
    |t| == 2 && o in ops && "(" !in t &&
    ((t == [t[0], o] && t[0] !in ops && e == IndexOutOfRange) ||
     (t == [o, t[1]] && t[1] !in ops && e == Diverges))
  }

  lemma {:induction false} PairLevel(t: seq<string>, ops: OpTable, o: string, e: ParseError, q: int)
    requires FailingPair(t, ops, o, e)
    ensures ReduceLevel(t, ops, q) == if q == ops[o].prec then Err(e) else Ok(t)
  {
    if t[1] == o {
      assert FirstAtPrec(t, ops, q, 0) == if q == ops[o].prec then Some(1) else None;
    } else {
      assert FirstAtPrec(t, ops, q, 0) == if q == ops[o].prec then Some(0) else None;
    }
  }

  lemma {:induction false} PairFails(t: seq<string>, ops: OpTable, o: string, e: ParseError)
    requires FailingPair(t, ops, o, e)
    ensures ParseTokens(t, ops) == Err(e)
  {
    var levels := Levels(ops);
    forall k | 0 <= k < |levels|
      ensures ReduceLevel(t, ops, levels[k]) == Ok(t) || ReduceLevel(t, ops, levels[k]) == Err(e)
    {
      PairLevel(t, ops, o, e, levels[k]);
    }
    LevelOf(ops, o);
    var k :| 0 <= k < |levels| && levels[k] == ops[o].prec;
    PairLevel(t, ops, o, e, levels[k]);
    ReduceLevelsFails(t, ops, levels, e);
    NoGroupParse(t, ops);
  }

  /** Two operands side by side: nothing folds them, and the second is lost. */
  lemma {:induction false} JuxtaposedOperands(x: string, y: string, ops: OpTable)
    requires x !in ops && x != "(" && y !in ops && y != "("
    ensures ParseTokens([x, y], ops) == Ok(x)
  {
    var t := [x, y];
    assert forall j :: 0 <= j < |t| ==> t[j] !in ops;
    assert ReduceLevels(t, ops, Levels(ops)) == Ok(t);
    NoGroupParse(t, ops);
  }
}

=== FILE: precedence.dfy ===
/** What `_parse_tokens` computes on well-formed input, against an
    independent reference: operands and single-character operators
    alternating, every operator a key of the table. The reference tree
    splits at the rightmost operator of lowest precedence, so operators of
    higher precedence bind tighter and operators of equal precedence group
    to the left. */
module Precedence {

  import opened Results
  import opened Text
  import opened Operators
  import opened Parser

  /** An operand token: non-empty and not an operator symbol. */
  predicate IsOperand(t: string, ops: OpTable) {
    |t| > 0 && t !in ops
  }

  /** `operand op operand op ... operand` */
  predicate Alternating(a: seq<string>, ops: OpTable) {
    |a| % 2 == 1 &&
    forall i :: 0 <= i < |a| ==> if i % 2 == 0 then IsOperand(a[i], ops) else a[i] in ops
  }

  lemma {:induction false} AlternatingSlices(a: seq<string>, ops: OpTable, m: nat)
    requires Alternating(a, ops) && m < |a| && m % 2 == 1
    ensures Alternating(a[..m], ops) && Alternating(a[m + 1..], ops)
  {
    var back := a[m + 1..];
    assert forall i :: 0 <= i < |back| ==> back[i] == a[m + 1 + i];
  }

  /** The rightmost operator of lowest precedence. */
  function RightmostMin(a: seq<string>, ops: OpTable): (m: nat)
    requires Alternating(a, ops) && |a| >= 3
    ensures m % 2 == 1 && m < |a|
    ensures forall k :: 0 <= k < |a| && k % 2 == 1 ==> ops[a[m]].prec <= ops[a[k]].prec
    ensures forall k :: m < k < |a| && k % 2 == 1 ==> ops[a[m]].prec < ops[a[k]].prec
    decreases |a|
  {
    if |a| == 3 then 1
    else
      var front := a[..|a| - 2];
      assert forall i :: 0 <= i < |front| ==> front[i] == a[i];
      var m' := RightmostMin(front, ops);
      if ops[a[|a| - 2]].prec <= ops[a[m']].prec then |a| - 2 else m'
  }

  /** The characterization of `RightmostMin` fixes it. */
  lemma {:induction false} RightmostMinUnique(a: seq<string>, ops: OpTable, m: nat)
    requires Alternating(a, ops) && |a| >= 3 && m % 2 == 1 && m < |a|
    requires forall k :: 0 <= k < |a| && k % 2 == 1 ==> ops[a[m]].prec <= ops[a[k]].prec
    requires forall k :: m < k < |a| && k % 2 == 1 ==> ops[a[m]].prec < ops[a[k]].prec
    ensures RightmostMin(a, ops) == m
  {
    var r := RightmostMin(a, ops);
    assert ops[a[r]].prec <= ops[a[m]].prec && ops[a[m]].prec <= ops[a[r]].prec;
  }

  /** The reference reading of an alternating token list. */
  function Ref(a: seq<string>, ops: OpTable): string
    requires Alternating(a, ops)
    decreases |a|
  {
    if |a| == 1 then a[0]
    else
      var m := RightmostMin(a, ops);
      AlternatingSlices(a, ops, m);
      Fill(ops[a[m]].template, Ref(a[..m], ops), Ref(a[m + 1..], ops))
  }

  /** The operator at `j` has the highest precedence, and no operator before
      it has as high a one: the operator the precedence loop folds next. */
  predicate FirstMax(a: seq<string>, ops: OpTable, j: nat)
    requires Alternating(a, ops)
  {
    j % 2 == 1 && j < |a| &&
    (forall k :: 0 <= k < |a| && k % 2 == 1 ==> ops[a[k]].prec <= ops[a[j]].prec) &&
    (forall k :: 0 <= k < j && k % 2 == 1 ==> ops[a[k]].prec < ops[a[j]].prec)
  }

  /** Folding keeps the list alternating; the operators after the fold are the
      old ones, shifted. */
  lemma {:induction false} FoldAlternating(a: seq<string>, ops: OpTable, j: nat)
    requires SingleCharKeys(ops) && Alternating(a, ops) && j % 2 == 1 && j < |a|
    ensures Alternating(Fold(a, ops, j), ops)
    ensures forall k :: 0 <= k < j - 1 ==> Fold(a, ops, j)[k] == a[k]
    ensures forall k :: j <= k < |a| - 2 ==> Fold(a, ops, j)[k] == a[k + 2]
  {
    var b := Fold(a, ops, j);
    var f := Fill(ops[a[j]].template, a[j - 1], a[j + 1]);
    FoldIndices(a, ops, j);
    assert IsOperand(f, ops) by {
      assert |f| >= 2;
    }
    forall i | 0 <= i < |b|
      ensures if i % 2 == 0 then IsOperand(b[i], ops) else b[i] in ops
    {
      if j <= i {
        assert b[i] == a[i + 2];
      }
    }
  }

  /** Where the tokens of a fold come from. */
  lemma {:induction false} FoldIndices(a: seq<string>, ops: OpTable, j: nat)
    requires 0 < j < |a| - 1 && a[j] in ops
    ensures forall k :: 0 <= k < j - 1 ==> Fold(a, ops, j)[k] == a[k]
    ensures Fold(a, ops, j)[j - 1] == Fill(ops[a[j]].template, a[j - 1], a[j + 1])
    ensures forall k :: j <= k < |a| - 2 ==> Fold(a, ops, j)[k] == a[k + 2]
  {
  }

  /** The first and the last of several operators are different ones. */
  lemma {:induction false} FirstMaxIsNotRightmostMin(a: seq<string>, ops: OpTable, j: nat)
    requires Alternating(a, ops) && |a| >= 5 && FirstMax(a, ops, j)
    ensures j != RightmostMin(a, ops)
  {
    var m := RightmostMin(a, ops);
    if j > 1 {
      assert ops[a[1]].prec < ops[a[j]].prec;
      assert ops[a[m]].prec <= ops[a[1]].prec;
    } else {
      assert ops[a[3]].prec <= ops[a[j]].prec;
      assert 1 < 3;
    }
  }

  /** The reference reading of a list with an operator, unfolded. */
  lemma {:induction false} RefSplit(a: seq<string>, ops: OpTable)
    requires Alternating(a, ops) && |a| >= 3
    ensures var m := RightmostMin(a, ops);
      Alternating(a[..m], ops) && Alternating(a[m + 1..], ops) &&
      Ref(a, ops) == Fill(ops[a[m]].template, Ref(a[..m], ops), Ref(a[m + 1..], ops))
  {
    AlternatingSlices(a, ops, RightmostMin(a, ops));
  }

  lemma {:induction false} FirstMaxPrefix(a: seq<string>, ops: OpTable, j: nat, m: nat)
    requires Alternating(a, ops) && FirstMax(a, ops, j) && j < m < |a| && m % 2 == 1
    ensures Alternating(a[..m], ops) && FirstMax(a[..m], ops, j)
  {
    AlternatingSlices(a, ops, m);
  }

  lemma {:induction false} FirstMaxSuffix(a: seq<string>, ops: OpTable, j: nat, m: nat)
    requires Alternating(a, ops) && FirstMax(a, ops, j) && m < j && m % 2 == 1
    ensures Alternating(a[m + 1..], ops) && FirstMax(a[m + 1..], ops, j - m - 1)
  {
    AlternatingSlices(a, ops, m);
    var back := a[m + 1..];
    assert forall k :: 0 <= k < |back| ==> back[k] == a[m + 1 + k];
  }

  /** `b` is `a` with the two entries at `j - 1` and `j` removed, an operand
      standing in for the operand at `j + 1`. */
  predicate Contracted(a: seq<string>, b: seq<string>, j: nat) {
    0 < j < |a| - 1 && |b| == |a| - 2 &&
    (forall k :: 0 <= k < j - 1 ==> b[k] == a[k]) &&
    (forall k :: j <= k < |b| ==> b[k] == a[k + 2])
  }

  /** Removing an operator left of the split point moves the split point two
      places left. */
  lemma {:induction false} SplitAfterRemovalBefore(a: seq<string>, b: seq<string>, ops: OpTable, j: nat, m: nat)
    requires Alternating(a, ops) && Alternating(b, ops) && Contracted(a, b, j)
    requires |a| >= 5 && j % 2 == 1 && m == RightmostMin(a, ops) && j < m
    ensures RightmostMin(b, ops) == m - 2
  {
    assert b[m - 2] == a[m];
    forall k | 0 <= k < |b| && k % 2 == 1
      ensures ops[b[m - 2]].prec <= ops[b[k]].prec
      ensures k > m - 2 ==> ops[b[m - 2]].prec < ops[b[k]].prec
    {
      if k >= j {
        assert b[k] == a[k + 2];
      } else {
        assert b[k] == a[k];
      }
    }
    RightmostMinUnique(b, ops, m - 2);
  }

  /** Removing an operator right of the split point keeps the split point. */
  lemma {:induction false} SplitAfterRemovalAfter(a: seq<string>, b: seq<string>, ops: OpTable, j: nat, m: nat)
    requires Alternating(a, ops) && Alternating(b, ops) && Contracted(a, b, j)
    requires |a| >= 5 && j % 2 == 1 && m == RightmostMin(a, ops) && j > m
    ensures RightmostMin(b, ops) == m
  {
    assert b[m] == a[m];
    forall k | 0 <= k < |b| && k % 2 == 1
      ensures ops[b[m]].prec <= ops[b[k]].prec
      ensures k > m ==> ops[b[m]].prec < ops[b[k]].prec
    {
      if k >= j {
        assert b[k] == a[k + 2];
      } else {
        assert b[k] == a[k];
      }
    }
    RightmostMinUnique(b, ops, m);
  }

  /** `b` is `a` with the operator at `j` folded with its neighbours. */
  predicate FoldedAt(a: seq<string>, b: seq<string>, ops: OpTable, j: nat) {
    Contracted(a, b, j) && a[j] in ops && b[j - 1] == Fill(ops[a[j]].template, a[j - 1], a[j + 1])
  }

  lemma {:induction false} FoldIsFoldedAt(a: seq<string>, ops: OpTable, j: nat)
    requires SingleCharKeys(ops) && Alternating(a, ops) && j % 2 == 1 && j < |a|
    ensures Alternating(Fold(a, ops, j), ops) && FoldedAt(a, Fold(a, ops, j), ops, j)
  {
    FoldAlternating(a, ops, j);
  }

  /** Cutting both lists right before the split point. */
  lemma {:induction false} FoldedAtPrefix(a: seq<string>, b: seq<string>, ops: OpTable, j: nat, m: nat)
    requires FoldedAt(a, b, ops, j) && j + 2 <= m < |a|
    ensures FoldedAt(a[..m], b[..m - 2], ops, j) && b[m - 2] == a[m] && b[m - 1..] == a[m + 1..]
  {
  }

  /** Cutting both lists right after the split point. */
  lemma {:induction false} FoldedAtSuffix(a: seq<string>, b: seq<string>, ops: OpTable, j: nat, m: nat)
    requires FoldedAt(a, b, ops, j) && m + 2 <= j
    ensures FoldedAt(a[m + 1..], b[m + 1..], ops, j - m - 1) && b[m] == a[m] && b[..m] == a[..m]
  {
    var a', b' := a[m + 1..], b[m + 1..];
    assert forall k :: 0 <= k < |a'| ==> a'[k] == a[m + 1 + k];
    assert forall k :: 0 <= k < |b'| ==> b'[k] == b[m + 1 + k];
  }

  lemma {:induction false} OddGap(i: nat, k: nat)
    requires i % 2 == 1 && k % 2 == 1 && i < k
    ensures i + 2 <= k
  {
  }

  /** A single operator folded: the reference reading is the fold. */
  lemma {:induction false} FoldedSingle(a: seq<string>, b: seq<string>, ops: OpTable, j: nat)
    requires Alternating(a, ops) && Alternating(b, ops) && FoldedAt(a, b, ops, j) && |a| == 3
    ensures Ref(b, ops) == Ref(a, ops)
  {
    assert a[..1] == [a[0]] && a[2..] == [a[2]];
    assert RightmostMin(a, ops) == 1;
    assert Ref(a, ops) == Fill(ops[a[1]].template, a[0], a[2]);
    assert |b| == 1 && j == 1;
    assert Ref(b, ops) == b[0];
  }

  /** A fold left of the split point changes only the left reading. */
  lemma {:induction false} FoldedLeftOfSplit(a: seq<string>, b: seq<string>, ops: OpTable, j: nat, m: nat)
    requires Alternating(a, ops) && Alternating(b, ops) && FoldedAt(a, b, ops, j)
    requires |a| >= 5 && j % 2 == 1 && m == RightmostMin(a, ops) && j + 2 <= m
    requires Alternating(a[..m], ops) && Alternating(b[..m - 2], ops)
    requires Ref(b[..m - 2], ops) == Ref(a[..m], ops)
    ensures Ref(b, ops) == Ref(a, ops)
  {
    SplitAfterRemovalBefore(a, b, ops, j, m);
    FoldedAtPrefix(a, b, ops, j, m);
    var m' := m - 2;
    assert b[m'] == a[m] && b[m' + 1..] == a[m + 1..];
    RefSplit(b, ops);
    assert Ref(b, ops) == Fill(ops[a[m]].template, Ref(b[..m'], ops), Ref(a[m + 1..], ops));
    RefSplit(a, ops);
  }

  /** A fold right of the split point changes only the right reading. */
  lemma {:induction false} FoldedRightOfSplit(a: seq<string>, b: seq<string>, ops: OpTable, j: nat, m: nat)
    requires Alternating(a, ops) && Alternating(b, ops) && FoldedAt(a, b, ops, j)
    requires |a| >= 5 && j % 2 == 1 && m == RightmostMin(a, ops) && m + 2 <= j
    requires Alternating(a[m + 1..], ops) && Alternating(b[m + 1..], ops)
    requires Ref(b[m + 1..], ops) == Ref(a[m + 1..], ops)
    ensures Ref(b, ops) == Ref(a, ops)
  {
    SplitAfterRemovalAfter(a, b, ops, j, m);
    FoldedAtSuffix(a, b, ops, j, m);
    RefSplit(a, ops);
    RefSplit(b, ops);
  }

  /** Folding the operator the precedence loop picks does not change the
      reference reading. */
  lemma {:induction false} FoldedAtPreservesRef(a: seq<string>, b: seq<string>, ops: OpTable, j: nat)
    requires Alternating(a, ops) && Alternating(b, ops) && FirstMax(a, ops, j) && FoldedAt(a, b, ops, j)
    ensures Ref(b, ops) == Ref(a, ops)
    decreases |a|
  {
    if |a| == 3 {
      FoldedSingle(a, b, ops, j);
    } else {
      var m := RightmostMin(a, ops);
      FirstMaxIsNotRightmostMin(a, ops, j);
      if j < m {
        LeftOfSplitSlices(a, b, ops, j, m);
        FoldedAtPreservesRef(a[..m], b[..m - 2], ops, j);
        FoldedLeftOfSplit(a, b, ops, j, m);
      } else {
        RightOfSplitSlices(a, b, ops, j, m);
        FoldedAtPreservesRef(a[m + 1..], b[m + 1..], ops, j - m - 1);
        FoldedRightOfSplit(a, b, ops, j, m);
      }
    }
  }

  /** A fold left of the split point is a fold of the left part. */
  lemma {:induction false} LeftOfSplitSlices(a: seq<string>, b: seq<string>, ops: OpTable, j: nat, m: nat)
    requires Alternating(a, ops) && Alternating(b, ops) && FirstMax(a, ops, j) && FoldedAt(a, b, ops, j)
    requires |a| >= 5 && m == RightmostMin(a, ops) && j < m
    ensures j + 2 <= m && Alternating(a[..m], ops) && Alternating(b[..m - 2], ops)
    ensures FirstMax(a[..m], ops, j) && FoldedAt(a[..m], b[..m - 2], ops, j)
  {
    OddGap(j, m);
    AlternatingSlices(b, ops, m - 2);
    FoldedAtPrefix(a, b, ops, j, m);
    FirstMaxPrefix(a, ops, j, m);
  }

  /** A fold right of the split point is a fold of the right part. */
  lemma {:induction false} RightOfSplitSlices(a: seq<string>, b: seq<string>, ops: OpTable, j: nat, m: nat)
    requires Alternating(a, ops) && Alternating(b, ops) && FirstMax(a, ops, j) && FoldedAt(a, b, ops, j)
    requires |a| >= 5 && m == RightmostMin(a, ops) && m < j
    ensures m + 2 <= j && Alternating(a[m + 1..], ops) && Alternating(b[m + 1..], ops)
    ensures FirstMax(a[m + 1..], ops, j - m - 1) && FoldedAt(a[m + 1..], b[m + 1..], ops, j - m - 1)
  {
    OddGap(m, j);
    AlternatingSlices(b, ops, m);
    FoldedAtSuffix(a, b, ops, j, m);
    FirstMaxSuffix(a, ops, j, m);
  }

  /** Folding the operator the precedence loop picks keeps the list
      well-formed and does not change the reference reading. */
  lemma {:induction false} FoldPreservesRef(a: seq<string>, ops: OpTable, j: nat)
    requires SingleCharKeys(ops) && Alternating(a, ops) && FirstMax(a, ops, j)
    ensures Alternating(Fold(a, ops, j), ops)
    ensures Ref(Fold(a, ops, j), ops) == Ref(a, ops)
  {
    FoldIsFoldedAt(a, ops, j);
    FoldedAtPreservesRef(a, Fold(a, ops, j), ops, j);
  }

  /** Every operator of the list has precedence at most `p`. */
  predicate AllAtMost(a: seq<string>, ops: OpTable, p: int)
    requires Alternating(a, ops)
  {
    forall k :: 0 <= k < |a| && k % 2 == 1 ==> ops[a[k]].prec <= p
  }

  /** Every operator of the list has precedence below `p`. */
  predicate AllBelow(a: seq<string>, ops: OpTable, p: int)
    requires Alternating(a, ops)
  {
    forall k :: 0 <= k < |a| && k % 2 == 1 ==> ops[a[k]].prec < p
  }

  lemma {:induction false} ContractedAllAtMost(a: seq<string>, b: seq<string>, ops: OpTable, j: nat, p: int)
    requires Alternating(a, ops) && Alternating(b, ops) && Contracted(a, b, j) && j % 2 == 1
    requires AllAtMost(a, ops, p)
    ensures AllAtMost(b, ops, p)
  {
    forall k | 0 <= k < |b| && k % 2 == 1
      ensures ops[b[k]].prec <= p
    {
      if k >= j {
        assert b[k] == a[k + 2];
      } else {
        assert b[k] == a[k];
      }
    }
  }

  lemma {:induction false} ContractedPrecsIn(a: seq<string>, b: seq<string>, ops: OpTable, j: nat, levels: seq<int>)
    requires Alternating(a, ops) && Alternating(b, ops) && Contracted(a, b, j) && j % 2 == 1
    requires PrecsIn(a, ops, levels)
    ensures PrecsIn(b, ops, levels)
  {
    forall k | 0 <= k < |b| && k % 2 == 1
      ensures ops[b[k]].prec in levels
    {
      if k >= j {
        assert b[k] == a[k + 2];
      } else {
        assert b[k] == a[k];
      }
    }
  }

  /** The operator the scan of a level finds is the one the fold lemma is about. */
  lemma {:induction false} FoundIsFirstMax(a: seq<string>, ops: OpTable, p: int, i: nat)
    requires Alternating(a, ops) && AllAtMost(a, ops, p) && FirstAtPrec(a, ops, p, 0) == Some(i)
    ensures FirstMax(a, ops, i) && 0 < i < |a| - 1
  {
    assert a[i] in ops;
    assert i % 2 == 1;
  }

  lemma {:induction false} NoneFoundAllBelow(a: seq<string>, ops: OpTable, p: int)
    requires Alternating(a, ops) && AllAtMost(a, ops, p) && FirstAtPrec(a, ops, p, 0).None?
    ensures ReduceLevel(a, ops, p) == Ok(a) && AllBelow(a, ops, p)
  {
    forall k | 0 <= k < |a| && k % 2 == 1
      ensures ops[a[k]].prec < p
    {
      assert !AtPrec(a[k], ops, p);
    }
  }

  lemma {:induction false} ReduceLevelStep(a: seq<string>, ops: OpTable, p: int, i: nat)
    requires FirstAtPrec(a, ops, p, 0) == Some(i) && 0 < i < |a| - 1
    ensures ReduceLevel(a, ops, p) == ReduceLevel(Fold(a, ops, i), ops, p)
  {
  }

  /** One level of the precedence loop, on a list whose operators are all of
      precedence `p` or lower, folds every operator of precedence `p` and keeps
      the reference reading. */
  lemma {:induction false} ReduceLevelRef(a: seq<string>, ops: OpTable, p: int, levels: seq<int>)
    requires SingleCharKeys(ops) && Alternating(a, ops) && AllAtMost(a, ops, p) && PrecsIn(a, ops, levels)
    ensures ReduceLevel(a, ops, p).Ok?
    ensures Alternating(ReduceLevel(a, ops, p).value, ops)
    ensures PrecsIn(ReduceLevel(a, ops, p).value, ops, levels)
    ensures Ref(ReduceLevel(a, ops, p).value, ops) == Ref(a, ops)
    ensures AllBelow(ReduceLevel(a, ops, p).value, ops, p)
    decreases |a|
  {
    match FirstAtPrec(a, ops, p, 0)
    case None =>
      NoneFoundAllBelow(a, ops, p);
    case Some(i) =>
      FoundIsFirstMax(a, ops, p, i);
      FoldPreservesRef(a, ops, i);
      var b := Fold(a, ops, i);
      FoldIsFoldedAt(a, ops, i);
      ContractedAllAtMost(a, b, ops, i, p);
      ContractedPrecsIn(a, b, ops, i, levels);
      ReduceLevelRef(b, ops, p, levels);
      ReduceLevelStep(a, ops, p, i);
  }

  /** Every operator's precedence is one of `levels`. */
  predicate PrecsIn(a: seq<string>, ops: OpTable, levels: seq<int>)
    requires Alternating(a, ops)
  {
    forall k :: 0 <= k < |a| && k % 2 == 1 ==> ops[a[k]].prec in levels
  }

  predicate Descending(levels: seq<int>) {
    forall i, j :: 0 <= i < j < |levels| ==> levels[i] > levels[j]
  }

  /** With no level left there is no operator left. */
  lemma {:induction false} NoLevelsLeft(a: seq<string>, ops: OpTable)
    requires Alternating(a, ops) && PrecsIn(a, ops, [])
    ensures ReduceLevels(a, ops, []) == Ok([Ref(a, ops)])
  {
    if |a| > 1 {
      OperatorPrecIn(a, ops, [], 1);
      assert false;
    }
    assert a == [a[0]];
  }

  lemma {:induction false} OperatorPrecIn(a: seq<string>, ops: OpTable, levels: seq<int>, k: nat)
    requires Alternating(a, ops) && PrecsIn(a, ops, levels) && k < |a| && k % 2 == 1
    ensures ops[a[k]].prec in levels
  {
  }

  /** After the first level, the operators left belong to the remaining levels,
      the first of which is the highest of them. */
  lemma {:induction false} NextLevel(b: seq<string>, ops: OpTable, levels: seq<int>)
    requires Alternating(b, ops) && |levels| > 0 && Descending(levels)
    requires PrecsIn(b, ops, levels) && AllBelow(b, ops, levels[0])
    ensures PrecsIn(b, ops, levels[1..]) && (|levels| > 1 ==> AllAtMost(b, ops, levels[1]))
  {
    var rest := levels[1..];
    forall k | 0 <= k < |b| && k % 2 == 1
      ensures ops[b[k]].prec in rest && ops[b[k]].prec <= rest[0]
    {
      var x := ops[b[k]].prec;
      var i :| 0 <= i < |levels| && levels[i] == x;
      assert i != 0;
      assert rest[i - 1] == x;
    }
  }

  lemma {:induction false} ReduceLevelsStep(a: seq<string>, ops: OpTable, levels: seq<int>, b: seq<string>)
    requires |levels| > 0 && ReduceLevel(a, ops, levels[0]) == Ok(b)
    ensures ReduceLevels(a, ops, levels) == ReduceLevels(b, ops, levels[1..])
  {
  }

  /** The precedence loop over strictly decreasing `levels` that include
      every operator's precedence leaves the reference reading as the only token. */
  lemma {:induction false} ReduceLevelsRef(a: seq<string>, ops: OpTable, levels: seq<int>)
    requires SingleCharKeys(ops) && Alternating(a, ops) && Descending(levels)
    requires PrecsIn(a, ops, levels)
    requires |levels| > 0 ==> AllAtMost(a, ops, levels[0])
    ensures ReduceLevels(a, ops, levels) == Ok([Ref(a, ops)])
    decreases |levels|
  {
    if |levels| == 0 {
      NoLevelsLeft(a, ops);
    } else {
      ReduceLevelRef(a, ops, levels[0], levels);
      var b := ReduceLevel(a, ops, levels[0]).value;
      NextLevel(b, ops, levels);
      ReduceLevelsRef(b, ops, levels[1..]);
      ReduceLevelsStep(a, ops, levels, b);
    }
  }

  /** `_parse_tokens` on a well-formed list without parentheses returns the
      reference reading. */
  lemma {:induction false} ParseTokensRef(a: seq<string>, ops: OpTable)
    requires SingleCharKeys(ops) && Alternating(a, ops) && "(" !in a
    ensures ParseTokens(a, ops) == Ok(Ref(a, ops))
  {
    var levels := Levels(ops);
    LevelsSpec(ops);
    if |levels| > 0 {
      assert AllAtMost(a, ops, levels[0]) by {
        forall k | 0 <= k < |a| && k % 2 == 1
          ensures ops[a[k]].prec <= levels[0]
        {
          var i :| 0 <= i < |levels| && levels[i] == ops[a[k]].prec;
        }
      }
    }
    ReduceLevelsRef(a, ops, levels);
  }

  /** Where a pass of the parenthesis loop finds `( a )` followed by text
      without `(`. */
  lemma {:induction false} InnermostGroup(x: seq<string>, a: seq<string>, y: seq<string>)
    requires "(" !in a && ")" !in a && "(" !in y
    ensures var t := x + ["("] + a + [")"] + y;
      "(" in t && Innermost(t) == Ok(Span(|x|, |x| + |a| + 1))
  {
    var t := x + ["("] + a + [")"] + y;
    var start, end := |x|, |x| + |a| + 1;
    assert t[start + 1..] == a + [")"] + y;
    assert t[start + 1..end] == a;
    InnermostSpanAt(t, start, end);
  }

  /** A `(` at `start` with no `(` after it and the first `)` after it at
      `end` is the group the parenthesis loop takes. */
  lemma {:induction false} InnermostSpanAt(t: seq<string>, start: nat, end: nat)
    requires start < end < |t| && t[start] == "(" && t[end] == ")"
    requires "(" !in t[start + 1..] && ")" !in t[start + 1..end]
    ensures "(" in t && Innermost(t) == Ok(Span(start, end))
  {
    var after := t[start + 1..];
    assert after[..end - start - 1] == t[start + 1..end];
    LastIndexIs(t, "(", start);
    FirstIndexIs(after, ")", end - start - 1);
    InnermostAt(t, start, end - start - 1);
  }

  /** Collapsing the group at `start..end` to `(inner)`. */
  lemma {:induction false} CollapseAt(t: seq<string>, start: nat, end: nat, inner: string)
    requires start < end < |t| && t[start] == "(" && "(" !in t[start + 1..]
    ensures Collapse(t, Span(start, end), inner) == t[..start] + ["(" + inner + ")"] + t[end + 1..]
  {
  }

  /** Two token lists the parenthesis loop flattens alike parse alike. */
  lemma {:induction false} SameFlatSameParse(t1: seq<string>, t2: seq<string>, ops: OpTable)
    requires Unparen(t1, ops) == Unparen(t2, ops)
    ensures ParseTokens(t1, ops) == ParseTokens(t2, ops)
  {
  }

  /** The group at `start..end`, the innermost one, is replaced by the
      reference reading of its contents in parentheses. */
  lemma {:induction false} GroupReplacedAt(t: seq<string>, start: nat, end: nat, ops: OpTable)
    requires start < end < |t| && t[start] == "(" && t[end] == ")"
    requires "(" !in t[start + 1..] && ")" !in t[start + 1..end]
    requires SingleCharKeys(ops) && Alternating(t[start + 1..end], ops)
    ensures ParseTokens(t, ops) == ParseTokens(t[..start] + ["(" + Ref(t[start + 1..end], ops) + ")"] + t[end + 1..], ops)
  {
    var inner := Ref(t[start + 1..end], ops);
    var next := t[..start] + ["(" + inner + ")"] + t[end + 1..];
    InnermostSpanAt(t, start, end);
    GroupHasNoOpen(t, Span(start, end));
    ParseTokensRef(t[start + 1..end], ops);
    CollapseAt(t, start, end, inner);
    UnparenStepTo(t, ops, start, end, inner, next);
    SameFlatSameParse(t, next, ops);
  }

  /** A group `( a )` with no `(` after it is replaced by the reference reading
      of `a` in parentheses, and parsing goes on from there. */
  lemma {:induction false} GroupReplacedByRef(x: seq<string>, a: seq<string>, y: seq<string>, ops: OpTable)
    requires SingleCharKeys(ops) && Alternating(a, ops) && "(" !in a && ")" !in a && "(" !in y
    ensures ParseTokens(x + ["("] + a + [")"] + y, ops) ==
      ParseTokens(x + ["(" + Ref(a, ops) + ")"] + y, ops)
  {
    var t := x + ["("] + a + [")"] + y;
    var start, end := |x|, |x| + |a| + 1;
    assert t[start + 1..] == a + [")"] + y;
    assert t[start + 1..end] == a && t[..start] == x && t[end + 1..] == y;
    GroupReplacedAt(t, start, end, ops);
  }

  /** A parenthesised well-formed list parses to its reference reading in
      parentheses. */
  lemma {:induction false} ParenthesisedRef(a: seq<string>, ops: OpTable)
    requires SingleCharKeys(ops) && Alternating(a, ops) && "(" !in a && ")" !in a
    ensures ParseTokens(["("] + a + [")"], ops) == Ok("(" + Ref(a, ops) + ")")
  {
    var g := "(" + Ref(a, ops) + ")";
    var t := ["("] + a + [")"];
    GroupReplacedByRef([], a, [], ops);
    BareGroup(a, g);
    assert ParseTokens(t, ops) == ParseTokens([g], ops);
    SingleOperand(g, ops);
    ParseTokensRef([g], ops);
  }

  lemma {:induction false} BareGroup(a: seq<string>, g: string)
    ensures [] + ["("] + a + [")"] + [] == ["("] + a + [")"]
    ensures [] + [g] + [] == [g]
  {
  }

  /** A group token is a well-formed list on its own. */
  lemma {:induction false} SingleOperand(g: string, ops: OpTable)
    requires SingleCharKeys(ops) && |g| >= 2
    ensures Alternating([g], ops) && Ref([g], ops) == g && "(" !in [g]
  {
  }

  /** `x o y`: the operator's template filled with its operands. */
  lemma {:induction false} RefOfThree(x: string, o: string, y: string, ops: OpTable)
    requires Alternating([x, o, y], ops) && o in ops
    ensures Ref([x, o, y], ops) == Fill(ops[o].template, x, y)
  {
    var a := [x, o, y];
    RefSplit(a, ops);
    assert a[..1] == [x] && a[2..] == [y];
  }

  /** `x o1 y o2 z`: the operator of higher precedence binds tighter, and of
      two operators of equal precedence the left one binds tighter. */
  lemma {:induction false} RefOfFive(x: string, o1: string, y: string, o2: string, z: string, ops: OpTable)
    requires Alternating([x, o1, y, o2, z], ops) && o1 in ops && o2 in ops
    ensures ops[o1].prec < ops[o2].prec ==>
      Ref([x, o1, y, o2, z], ops) == Fill(ops[o1].template, x, Fill(ops[o2].template, y, z))
    ensures ops[o2].prec <= ops[o1].prec ==>
      Ref([x, o1, y, o2, z], ops) == Fill(ops[o2].template, Fill(ops[o1].template, x, y), z)
  {
    var a := [x, o1, y, o2, z];
    RefSplit(a, ops);
    var m := RightmostMin(a, ops);
    if ops[o1].prec < ops[o2].prec {
      assert m == 1;
      assert a[..1] == [x] && a[2..] == [y, o2, z];
      RefOfThree(y, o2, z, ops);
    } else {
      assert m == 3;
      assert a[..3] == [x, o1, y] && a[4..] == [z];
      RefOfThree(x, o1, y, ops);
    }
  }
}

=== FILE: results.dfy ===
/** Failure-compatible wrappers used throughout the calculator model:
    an operation either yields a value or raises an error. */
module Results {

  datatype Option<+T> = None | Some(value: T)

  /** `Ok(v)` models a normal return, `Err(e)` a raised exception. */
  datatype Result<+T, +E> = Ok(value: T) | Err(error: E) {

    predicate IsFailure() {
      Err?
    }

    function PropagateFailure<U>(): Result<U, E>
      requires Err?
    {
      Err(error)
    }

    function Extract(): T
      requires Ok?
    {
      value
    }
  }
}

/** The Python exceptions the domain model raises, and the ones `eval`
    raises on a line it cannot read or a name it does not know. */
module Errors {

  datatype PyError =
    | ValueError(message: string)
    | TypeError
    | ZeroDivisionError
    | NameError(name: string)
    | SyntaxError
}

=== FILE: session.dfy ===
/** The read-evaluate loop of `Calculator.begin`, one line at a time, as a
    pure transition on the session variables and the history. Reading a
    line, printing and Python's `eval` are outside the model: the line is an
    argument (`None` for end of input) and `eval` is a parameter that either
    yields a value or raises. */
module Session {

  import opened Results
  import opened Errors
  import opened Text
  import opened Operators
  import opened Parser
  import opened Suffixes
  import opened Calculator

  /** The calculator's configuration: `self.symbols`, `self.OPERATORS` and
      `self.SUFFIXES`, with Python's `float()` and `str()` on floats, which
      suffix expansion uses. */
  datatype Config<V> = Config(
    symbols: map<string, V>,
    ops: OpTable,
    suffixes: SuffixTable,
    toFloat: string -> real,
    render: real -> string)

  /** `self.session_vars` and `self.history`. */
  datatype State<V> = State(vars: map<string, V>, history: seq<(string, V)>)

  /** What a line raised: a parser failure, or a Python exception from the
      name check or from `eval`. */
  datatype Failure = ParseFailure(error: ParseError) | Raised(exception: PyError)

  /** Where one pass of the loop leads. */
  datatype Outcome<V> =
    | Exit                                              // `exit`, or end of input
    | Hang                                              // the parser never returns
    | Next(state: State<V>, failure: Option<Failure>)   // back to the prompt

  /** `eval(parsed_expr, {}, eval_env)` */
  type Evaluator<!V> = (string, map<string, V>) -> Result<V, PyError>

  /** `{**self.symbols, **self.session_vars}`: session variables shadow the
      built-in symbols. */
  function Env<V>(c: Config<V>, st: State<V>): (env: map<string, V>)
    ensures env.Keys == c.symbols.Keys + st.vars.Keys
    ensures forall k :: k in st.vars ==> env[k] == st.vars[k]
    ensures forall k :: k in c.symbols && k !in st.vars ==> env[k] == c.symbols[k]
  {
    c.symbols + st.vars
  }

  /** The line typed to leave the loop, in any case and with any surrounding whitespace. */
  predicate IsExit(line: string) {
    Lower(Strip(line)) == "exit"
  }

  /** The message of the `ValueError` raised for a bad variable name. */
  function NameMessage(name: string): string {
    "'" + name + "' is not a valid variable name."
  }

  /** `self.parse(expr)` followed by `eval`. */
  function Evaluate<V>(c: Config<V>, expr: string, env: map<string, V>, eval: Evaluator<V>): (r: Result<V, Failure>)
  {
    match Parse(expr, c.ops)
    case Err(e) => Err(ParseFailure(e))
    case Ok(code) =>
      match eval(code, env)
      case Err(e) => Err(Raised(e))
      case Ok(v) => Ok(v)
  }

  /** A parser error and an error raised by `eval` stay apart: the first
      surfaces as a parse failure, the second as a raised error, and a
      value is produced only when both steps succeed. */
  lemma {:induction false} EvaluateKeepsFailuresApart<V>(c: Config<V>, expr: string, env: map<string, V>, eval: Evaluator<V>)
    ensures var r := Evaluate(c, expr, env, eval);
      r.Err? && r.error.ParseFailure? <==> Parse(expr, c.ops).Err?
    ensures var r := Evaluate(c, expr, env, eval);
      r.Ok? <==> Parse(expr, c.ops).Ok? && eval(Parse(expr, c.ops).value, env).Ok?
    ensures var r := Evaluate(c, expr, env, eval);
      r.Ok? ==> r.value == eval(Parse(expr, c.ops).value, env).value
    ensures var r := Evaluate(c, expr, env, eval);
      r.Err? && r.error.Raised? ==> Parse(expr, c.ops).Ok? && eval(Parse(expr, c.ops).value, env) == Err(r.error.exception)
  {
  }

  /** Where a line evaluates to: a failure leaves the state as it was, and a
      parser that never returns hangs the loop. */
  function Settle<V>(st: State<V>, result: Result<V, Failure>, update: V -> State<V>): (o: Outcome<V>)
    ensures result.Ok? ==> o == Next(update(result.value), None)
    ensures result.Err? && result.error != ParseFailure(Diverges) ==> o == Next(st, Some(result.error))
    ensures result == Err(ParseFailure(Diverges)) ==> o == Hang
  {
    match result
    case Ok(v) => Next(update(v), None)
    case Err(ParseFailure(Diverges)) => Hang
    case Err(f) => Next(st, Some(f))
  }

  /** Every session variable has a name Python accepts as an identifier. */
  predicate NamesAreIdentifiers<V>(vars: map<string, V>) {
    forall k :: k in vars ==> IsIdentifier(k)
  }

  /** One pass of the `while True` loop of `begin` on the line `line`. */
  function Step<V>(c: Config<V>, st: State<V>, line: Option<string>, eval: Evaluator<V>): (o: Outcome<V>)
    requires ValidSuffixes(c.suffixes)
    ensures o == Exit <==> line.None? || IsExit(line.value)
    ensures o.Next? && o.failure.Some? ==> o.state == st
    ensures o.Next? ==> st.history <= o.state.history && |o.state.history| <= |st.history| + 1
    ensures o.Next? && |o.state.history| > |st.history| ==> o.state.history[|st.history|].0 == line.value
    ensures o.Next? ==> st.vars.Keys <= o.state.vars.Keys
    ensures o.Next? && NamesAreIdentifiers(st.vars) ==> NamesAreIdentifiers(o.state.vars)
  {
    match line
    case None => Exit
    case Some(input) =>
      if IsExit(input) then Exit
      else
        var expanded := ExpandSuffixes(input, c.suffixes, c.toFloat, c.render);
        match FirstIndexOf(expanded, '=')
        case Some(i) => Assign(c, st, Strip(expanded[..i]), Strip(expanded[i + 1..]), eval)
        case None => Record(c, st, input, expanded, eval)
  }

  /** A line with `=`: the name left of the first `=` is checked, the text
      right of it evaluated, and only the name is rebound; the history is
      not touched. */
  function Assign<V>(c: Config<V>, st: State<V>, name: string, rhs: string, eval: Evaluator<V>): (o: Outcome<V>)
    ensures o != Exit
    ensures !IsIdentifier(name) ==> o == Next(st, Some(Raised(ValueError(NameMessage(name)))))
    ensures o.Next? && o.failure.Some? ==> o.state == st
    ensures o.Next? && o.failure.None? ==>
      IsIdentifier(name) && o.state.history == st.history &&
      name in o.state.vars && o.state.vars.Keys == st.vars.Keys + {name} &&
      Evaluate(c, rhs, Env(c, st), eval) == Ok(o.state.vars[name]) &&
      (forall k :: k in st.vars && k != name ==> o.state.vars[k] == st.vars[k])
    ensures var ev := Evaluate(c, rhs, Env(c, st), eval);
      IsIdentifier(name) && ev.Ok? ==> o == Next(State(st.vars[name := ev.value], st.history), None)
    ensures var ev := Evaluate(c, rhs, Env(c, st), eval);
      IsIdentifier(name) && ev.Err? ==> o == if ev.error == ParseFailure(Diverges) then Hang else Next(st, Some(ev.error))
  {
    if !IsIdentifier(name) then Next(st, Some(Raised(ValueError(NameMessage(name)))))
    else Settle(st, Evaluate(c, rhs, Env(c, st), eval), v => State(st.vars[name := v], st.history))
  }

  /** A line without `=`: its value is bound to `_` and the line, as typed,
      is appended to the history with it. */
  function Record<V>(c: Config<V>, st: State<V>, input: string, expanded: string, eval: Evaluator<V>): (o: Outcome<V>)
    ensures o != Exit
    ensures o.Next? && o.failure.Some? ==> o.state == st
    ensures o.Next? && o.failure.None? ==> "_" in o.state.vars
    ensures o.Next? && o.failure.None? ==>
      var v := o.state.vars["_"];
      o.state.history == st.history + [(input, v)] &&
      o.state.vars == st.vars["_" := v] &&
      Evaluate(c, expanded, Env(c, st), eval) == Ok(v)
    ensures var ev := Evaluate(c, expanded, Env(c, st), eval);
      ev.Ok? ==> o == Next(State(st.vars["_" := ev.value], st.history + [(input, ev.value)]), None)
    ensures var ev := Evaluate(c, expanded, Env(c, st), eval);
      ev.Err? ==> o == if ev.error == ParseFailure(Diverges) then Hang else Next(st, Some(ev.error))
  {
    Settle(st, Evaluate(c, expanded, Env(c, st), eval), v => State(st.vars["_" := v], st.history + [(input, v)]))
  }

  /** The text of a line after suffix expansion. */
  function Expanded<V>(c: Config<V>, input: string): string
    requires ValidSuffixes(c.suffixes)
  {
    ExpandSuffixes(input, c.suffixes, c.toFloat, c.render)
  }

  /** A line whose left side is not an identifier raises `ValueError` before
      anything is parsed or evaluated: the outcome depends on neither the
      operator table nor `eval`, and the state is unchanged. */
  lemma {:induction false} BadNameRaisesFirst<V>(c: Config<V>, st: State<V>, input: string, ops: OpTable, e1: Evaluator<V>, e2: Evaluator<V>)
    requires ValidSuffixes(c.suffixes) && !IsExit(input)
    requires FirstIndexOf(Expanded(c, input), '=').Some?
    requires !IsIdentifier(Strip(Expanded(c, input)[..FirstIndexOf(Expanded(c, input), '=').value]))
    ensures Step(c, st, Some(input), e1) == Step(c.(ops := ops), st, Some(input), e2)
    ensures Step(c, st, Some(input), e1).Next? && Step(c, st, Some(input), e1).state == st
    ensures Step(c, st, Some(input), e1).failure.Some? && Step(c, st, Some(input), e1).failure.value.Raised?
  {
  }

  /** An assignment line with a good name: success binds the name and touches
      neither the other variables nor the history; a failure leaves the state
      as it was, or hangs the loop when the parser never returns. */
  lemma {:induction false} AssignmentChangesOneVariable<V>(c: Config<V>, st: State<V>, input: string, eval: Evaluator<V>)
    requires ValidSuffixes(c.suffixes) && !IsExit(input)
    requires FirstIndexOf(Expanded(c, input), '=').Some?
    ensures var o := Step(c, st, Some(input), eval);
      var i := FirstIndexOf(Expanded(c, input), '=').value;
      var name := Strip(Expanded(c, input)[..i]);
      o.Next? && o.failure.None? ==>
        o.state.history == st.history && name in o.state.vars &&
        o.state.vars.Keys == st.vars.Keys + {name} &&
        (forall k :: k in st.vars && k != name ==> o.state.vars[k] == st.vars[k])
    ensures var e := Expanded(c, input);
      var i := FirstIndexOf(e, '=').value;
      var name := Strip(e[..i]);
      var ev := Evaluate(c, Strip(e[i + 1..]), Env(c, st), eval);
      IsIdentifier(name) && ev.Ok? ==>
        Step(c, st, Some(input), eval) == Next(State(st.vars[name := ev.value], st.history), None)
    ensures var e := Expanded(c, input);
      var i := FirstIndexOf(e, '=').value;
      var name := Strip(e[..i]);
      var ev := Evaluate(c, Strip(e[i + 1..]), Env(c, st), eval);
      IsIdentifier(name) && ev.Err? ==>
        Step(c, st, Some(input), eval) == if ev.error == ParseFailure(Diverges) then Hang else Next(st, Some(ev.error))
  {
  }

  /** A line without `=`: success appends the line as typed, with its value,
      to the history and binds the value to `_`; a failure leaves the state as
      it was, or hangs the loop when the parser never returns. */
  lemma {:induction false} PlainLineRecorded<V>(c: Config<V>, st: State<V>, input: string, eval: Evaluator<V>)
    requires ValidSuffixes(c.suffixes) && !IsExit(input)
    requires FirstIndexOf(Expanded(c, input), '=').None?
    ensures var o := Step(c, st, Some(input), eval);
      o.Next? && o.failure.None? ==>
        var v := o.state.vars["_"];
        o.state.history == st.history + [(input, v)] &&
        o.state.vars == st.vars["_" := v] &&
        Evaluate(c, Expanded(c, input), Env(c, st), eval) == Ok(v)
    ensures var ev := Evaluate(c, Expanded(c, input), Env(c, st), eval);
      ev.Ok? ==>
        Step(c, st, Some(input), eval) == Next(State(st.vars["_" := ev.value], st.history + [(input, ev.value)]), None)
    ensures var ev := Evaluate(c, Expanded(c, input), Env(c, st), eval);
      ev.Err? ==>
        Step(c, st, Some(input), eval) == if ev.error == ParseFailure(Diverges) then Hang else Next(st, Some(ev.error))
  {
  }

  /** `exit` in any letter case, with any whitespace around it, ends the loop. */
  lemma {:induction false} ExitIgnoresCaseAndSpace(w1: string, x: string, w2: string)
    requires forall i :: 0 <= i < |w1| ==> IsSpace(w1[i])
    requires forall i :: 0 <= i < |w2| ==> IsSpace(w2[i])
    requires Lower(x) == "exit"
    ensures IsExit(w1 + x + w2)
  {
    assert LowerChar(x[0]) == 'e' && LowerChar(x[3]) == 't';
    StripAround(w1, x, w2);
  }

  /** Nothing else ends the loop: a line that does is whitespace, the four
      letters of `exit` in some letter case, and whitespace. */
  lemma {:induction false} ExitNeedsTheWordAlone(s: string)
    requires IsExit(s)
    ensures var a := Text.Run(s, 0, IsSpace);
      a + 4 <= |s| && (forall j :: 0 <= j < a ==> IsSpace(s[j])) &&
      Lower(s[a..a + 4]) == "exit" && (forall j :: a + 4 <= j < |s| ==> IsSpace(s[j]))
  {
    var a := Text.Run(s, 0, IsSpace);
    var t := s[a..];
    var n := TrailingSpaces(t);
    assert Strip(s) == t[..|t| - n];
    assert |t| - n == 4;
    assert t[..4] == s[a..a + 4];
    forall j | a + 4 <= j < |s|
      ensures IsSpace(s[j])
    {
      assert s[j] == t[j - a];
    }
  }

  /** How a sequence of lines ends: at `exit` or the end of input, or stuck in
      the parser, with the state reached. */
  datatype Ending<V> = Ending(state: State<V>, hung: bool)

  /** The loop of `begin` over `lines`, followed by the end of input. */
  function Run<V>(c: Config<V>, st: State<V>, lines: seq<string>, eval: Evaluator<V>): (e: Ending<V>)
    requires ValidSuffixes(c.suffixes)
    ensures st.history <= e.state.history
    ensures |e.state.history| <= |st.history| + |lines|
    ensures forall j :: |st.history| <= j < |e.state.history| ==> e.state.history[j].0 in lines
    ensures st.vars.Keys <= e.state.vars.Keys
    ensures NamesAreIdentifiers(st.vars) ==> NamesAreIdentifiers(e.state.vars)
    decreases |lines|
  {
    if |lines| == 0 then Ending(st, false)
    else
      match Step(c, st, Some(lines[0]), eval)
      case Exit => Ending(st, false)
      case Hang => Ending(st, true)
      case Next(next, _) =>
        var e := Run(c, next, lines[1..], eval);
        assert forall j :: |next.history| <= j < |e.state.history| ==> e.state.history[j].0 in lines by {
          assert forall x :: x in lines[1..] ==> x in lines;
        }
        e
  }

  /** A new calculator: no session variables and an empty history. */
  function Fresh<V>(): State<V> {
    State(map[], [])
  }

  /** `get_history`: a copy, which for an immutable value is the value. */
  function GetHistory<V>(st: State<V>): seq<(string, V)> {
    st.history
  }

  /** `get_variables` */
  function GetVariables<V>(st: State<V>): map<string, V> {
    st.vars
  }

  /** `clear_history`: the history is emptied and the variables kept. */
  function ClearHistory<V>(st: State<V>): (r: State<V>)
    ensures GetHistory(r) == [] && GetVariables(r) == GetVariables(st)
  {
    st.(history := [])
  }

  /** `clear_variables`: the variables are dropped and the history kept. */
  function ClearVariables<V>(st: State<V>): (r: State<V>)
    ensures GetVariables(r) == map[] && GetHistory(r) == GetHistory(st)
  {
    st.(vars := map[])
  }

  /** Clearing both, in either order, gives a fresh session back. */
  lemma {:induction false} ClearBoth<V>(st: State<V>)
    ensures ClearHistory(ClearVariables(st)) == ClearVariables(ClearHistory(st)) == Fresh()
  {
  }

  /** After `clear_history`, every entry of the history is a line typed
      since, and there are at most as many entries as lines. */
  lemma {:induction false} HistoryAfterClear<V>(c: Config<V>, st: State<V>, lines: seq<string>, eval: Evaluator<V>)
    requires ValidSuffixes(c.suffixes)
    ensures var h := GetHistory(Run(c, ClearHistory(st), lines, eval).state);
      |h| <= |lines| && forall j :: 0 <= j < |h| ==> h[j].0 in lines
  {
  }

  /** A fresh session only ever holds variables named by identifiers. */
  lemma {:induction false} FreshNamesStayIdentifiers<V>(c: Config<V>, lines: seq<string>, eval: Evaluator<V>)
    requires ValidSuffixes(c.suffixes)
    ensures NamesAreIdentifiers(GetVariables(Run(c, Fresh(), lines, eval).state))
  {
  }
}

=== FILE: suffixes.dfy ===
/** `Calculator._expand_suffixes`: every number written with a unit suffix
    (`10k`, `1.5M`, `200n`) is replaced by the text of its scaled value before
    the line is tokenised. */
module Suffixes {

  import opened Text

  /** The suffix table: one multiplier per suffix character. */
  type SuffixTable = map<char, real>

  /** The model covers single-character suffixes that are neither digits nor
      `.`; for those the greedy match of the number part is the only one the
      regular expression can use, so no backtracking has to be modelled. The
      table is not empty: with no suffix the pattern's suffix group is empty
      and matches after every number. */
  predicate ValidSuffixes(table: SuffixTable) {
    table != map[] && forall c :: c in table ==> !IsDigit(c) && c != '.'
  }

  /** `\b` at position `q` of `s`: exactly one of the characters around `q`
      is a word character (the end of the text counts as a non-word character). */
  predicate WordBoundary(s: string, q: nat)
    requires 0 < q <= |s|
  {
    IsWordChar(s[q - 1]) != (q < |s| && IsWordChar(s[q]))
  }

  /** Length of the match of `(\d+\.?\d*)(<suffix>)\b` at the start of `s`,
      or 0 when there is none. The number part is `s[..n - 1]`, the suffix `s[n - 1]`. */
  function SuffixMatchLen(s: string, table: SuffixTable): (n: nat)
    ensures n <= |s|
    ensures n > 0 ==> n >= 2 && IsDigit(s[0]) && s[n - 1] in table && WordBoundary(s, n)
    ensures n > 0 ==> IsDecimal(s[..n - 1])
  {
    if Run(s, 0, IsDigit) == 0 then 0
    else
      var c := NumberPartEnd(s);
      NumberPartIsDecimal(s);
      if c < |s| && s[c] in table && WordBoundary(s, c + 1) then c + 1 else 0
  }

  /** The greedy number part is a decimal literal `\d+` or `\d+.\d*`. */
  lemma {:induction false} NumberPartIsDecimal(s: string)
    requires Run(s, 0, IsDigit) > 0
    ensures IsDecimal(s[..NumberPartEnd(s)])
  {
    var a := Run(s, 0, IsDigit);
    var c := NumberPartEnd(s);
    RunTake(s, c, 0, IsDigit);
    if a < |s| && s[a] == '.' {
      RunTake(s, c, a + 1, IsDigit);
    }
  }

  /** Where the greedy number part `\d+\.?\d*` of a match at the start of `s`
      ends: all the digits, then a `.` if one follows, then the digits after it. */
  function NumberPartEnd(s: string): (c: nat)
    requires Run(s, 0, IsDigit) > 0
    ensures Run(s, 0, IsDigit) <= c <= |s|
  {
    var a := Run(s, 0, IsDigit);
    var b := if a < |s| && s[a] == '.' then a + 1 else a;
    b + Run(s, b, IsDigit)
  }

  /** `str(float(num) * SUFFIXES[k])`, the text a match is replaced by. */
  function Replacement(num: string, k: char, table: SuffixTable, toFloat: string -> real, render: real -> string): string
    requires k in table
  {
    render(toFloat(num) * table[k])
  }

  /** `pattern.sub(replace_suffix, expr)`: scan left to right; at each match
      emit `str(float(number) * multiplier)` and continue after it, otherwise
      copy one character. `toFloat` and `render` stand for Python's `float()`
      and `str()` on floats, which the model leaves uninterpreted. */
  function ExpandSuffixes(s: string, table: SuffixTable, toFloat: string -> real, render: real -> string): (r: string)
    requires ValidSuffixes(table)
    ensures (forall i :: 0 <= i < |s| ==> s[i] !in table) ==> r == s
    decreases |s|
  {
    if |s| == 0 then ""
    else
      var n := SuffixMatchLen(s, table);
      if n > 0 then Replacement(s[..n - 1], s[n - 1], table, toFloat, render) + ExpandSuffixes(s[n..], table, toFloat, render)
      else
        var rest := ExpandSuffixes(s[1..], table, toFloat, render);
        assert (forall i :: 0 <= i < |s| ==> s[i] !in table) ==> rest == s[1..];
        [s[0]] + rest
  }

  /** Text at none of whose positions a match starts is copied as it is,
      and the scan goes on with what follows it. */
  lemma {:induction false} ExpandKeepsMatchFreePrefix(p: string, s: string, table: SuffixTable, toFloat: string -> real, render: real -> string)
    requires ValidSuffixes(table)
    requires forall i :: 0 <= i < |p| ==> SuffixMatchLen((p + s)[i..], table) == 0
    ensures ExpandSuffixes(p + s, table, toFloat, render) == p + ExpandSuffixes(s, table, toFloat, render)
  {
    var t := p + s;
    CopiesUpTo(t, |p|, 0, table, toFloat, render);
    assert t[0..] == t && t[0..|p|] == p && t[|p|..] == s;
  }

  /** From `j` up to `k` no match starts, so the scan copies `t[j..k]`. */
  lemma {:induction false} CopiesUpTo(t: string, k: nat, j: nat, table: SuffixTable, toFloat: string -> real, render: real -> string)
    requires ValidSuffixes(table) && j <= k <= |t|
    requires forall i :: j <= i < k ==> SuffixMatchLen(t[i..], table) == 0
    ensures ExpandSuffixes(t[j..], table, toFloat, render) == t[j..k] + ExpandSuffixes(t[k..], table, toFloat, render)
    decreases k - j
  {
    if j < k {
      CopiesUpTo(t, k, j + 1, table, toFloat, render);
      CopiesOne(t, j, k, ExpandSuffixes(t[k..], table, toFloat, render), table, toFloat, render);
    }
  }

  lemma {:induction false} CopiesOne(t: string, j: nat, k: nat, rest: string, table: SuffixTable, toFloat: string -> real, render: real -> string)
    requires ValidSuffixes(table) && j < k <= |t|
    requires SuffixMatchLen(t[j..], table) == 0
    requires ExpandSuffixes(t[j + 1..], table, toFloat, render) == t[j + 1..k] + rest
    ensures ExpandSuffixes(t[j..], table, toFloat, render) == t[j..k] + rest
  {
    CopyStep(t[j..], table, toFloat, render);
    assert t[j..][1..] == t[j + 1..];
    HeadThenRest(t, j, k, rest);
  }

  lemma {:induction false} HeadThenRest(t: string, j: nat, k: nat, rest: string)
    requires j < k <= |t|
    ensures [t[j]] + (t[j + 1..k] + rest) == t[j..k] + rest
  {
    assert t[j..k] == [t[j]] + t[j + 1..k];
  }

  /** Where no match starts, the scan copies one character. */
  lemma {:induction false} CopyStep(t: string, table: SuffixTable, toFloat: string -> real, render: real -> string)
    requires ValidSuffixes(table)
    requires |t| > 0 && SuffixMatchLen(t, table) == 0
    ensures ExpandSuffixes(t, table, toFloat, render) == [t[0]] + ExpandSuffixes(t[1..], table, toFloat, render)
  {
  }

  /** One replacement step of the scan. */
  lemma {:induction false} ExpandStep(s: string, table: SuffixTable, toFloat: string -> real, render: real -> string)
    requires ValidSuffixes(table)
    requires SuffixMatchLen(s, table) > 0
    ensures ExpandSuffixes(s, table, toFloat, render)
         == Replacement(s[..SuffixMatchLen(s, table) - 1], s[SuffixMatchLen(s, table) - 1], table, toFloat, render)
            + ExpandSuffixes(s[SuffixMatchLen(s, table)..], table, toFloat, render)
  {
  }

  /** An unsigned decimal literal as the number part accepts it: digits,
      optionally followed by `.` and more digits. */
  predicate IsDecimal(num: string) {
    var a := Run(num, 0, IsDigit);
    a > 0 && (a == |num| || (num[a] == '.' && a + 1 + Run(num, a + 1, IsDigit) == |num|))
  }

  /** Text in which no position starts a suffixed number is returned unchanged. */
  lemma {:induction false} ExpandWithoutMatchIsIdentity(s: string, table: SuffixTable, toFloat: string -> real, render: real -> string)
    requires ValidSuffixes(table)
    requires forall i :: 0 <= i < |s| ==> SuffixMatchLen(s[i..], table) == 0
    ensures ExpandSuffixes(s, table, toFloat, render) == s
    decreases |s|
  {
    if |s| > 0 {
      assert s[0..] == s;
      forall i | 0 <= i < |s[1..]|
        ensures SuffixMatchLen(s[1..][i..], table) == 0
      {
        assert s[1..][i..] == s[i + 1..];
      }
      ExpandWithoutMatchIsIdentity(s[1..], table, toFloat, render);
      assert s == [s[0]] + s[1..];
    }
  }

  /** In particular text that contains no suffix character is unchanged. */
  lemma {:induction false} ExpandWithoutSuffixCharIsIdentity(s: string, table: SuffixTable, toFloat: string -> real, render: real -> string)
    requires ValidSuffixes(table)
    requires forall i :: 0 <= i < |s| ==> s[i] !in table
    ensures ExpandSuffixes(s, table, toFloat, render) == s
  {
    forall i | 0 <= i < |s|
      ensures SuffixMatchLen(s[i..], table) == 0
    {
    }
    ExpandWithoutMatchIsIdentity(s, table, toFloat, render);
  }

  /** From any digit of a decimal literal followed by a non-digit that is not
      `.`, the number part of the pattern extends exactly to the end of the literal. */
  lemma {:induction false} NumberPartEndsAtLiteralEnd(num: string, i: nat, rest: string)
    requires IsDecimal(num)
    requires i < |num| && IsDigit(num[i])
    requires |rest| > 0 && !IsDigit(rest[0]) && rest[0] != '.'
    ensures Run((num + rest)[i..], 0, IsDigit) > 0 && NumberPartEnd((num + rest)[i..]) == |num| - i
  {
    var s := (num + rest)[i..];
    assert forall j :: 0 <= j < |num| - i ==> s[j] == num[i + j];
    assert s[|num| - i] == rest[0];
    if i < Run(num, 0, IsDigit) {
      NumberPartFromWholeDigit(num, i, s);
    } else {
      NumberPartFromFractionDigit(num, i, s);
    }
  }

  lemma {:induction false} NumberPartFromWholeDigit(num: string, i: nat, s: string)
    requires IsDecimal(num) && i < Run(num, 0, IsDigit)
    requires |s| > |num| - i && !IsDigit(s[|num| - i]) && s[|num| - i] != '.'
    requires forall j :: 0 <= j < |num| - i ==> s[j] == num[i + j]
    ensures Run(s, 0, IsDigit) > 0 && NumberPartEnd(s) == |num| - i
  {
    var a0 := Run(num, 0, IsDigit);
    RunUnique(s, 0, a0 - i, IsDigit);
    if a0 == |num| {
      RunUnique(s, a0 - i, 0, IsDigit);
    } else {
      var f := Run(num, a0 + 1, IsDigit);
      RunUnique(s, a0 - i + 1, f, IsDigit);
    }
  }

  lemma {:induction false} NumberPartFromFractionDigit(num: string, i: nat, s: string)
    requires IsDecimal(num) && Run(num, 0, IsDigit) <= i < |num| && IsDigit(num[i])
    requires |s| > |num| - i && !IsDigit(s[|num| - i]) && s[|num| - i] != '.'
    requires forall j :: 0 <= j < |num| - i ==> s[j] == num[i + j]
    ensures Run(s, 0, IsDigit) > 0 && NumberPartEnd(s) == |num| - i
  {
    var a0 := Run(num, 0, IsDigit);
    assert i > a0;
    var f := Run(num, a0 + 1, IsDigit);
    RunUnique(s, 0, |num| - i, IsDigit);
    RunUnique(s, |num| - i, 0, IsDigit);
  }

  /** The suffix pattern matches a decimal literal and its suffix character
      when a non-word character (or the end of the text) follows. */
  lemma {:induction false} SuffixedNumberMatches(num: string, k: char, rest: string, table: SuffixTable)
    requires ValidSuffixes(table)
    requires IsDecimal(num) && k in table && IsWordChar(k)
    requires |rest| == 0 || !IsWordChar(rest[0])
    ensures SuffixMatchLen(num + [k] + rest, table) == |num| + 1
  {
    var s := num + [k] + rest;
    assert s == num + ([k] + rest);
    NumberPartEndsAtLiteralEnd(num, 0, [k] + rest);
    assert s[0..] == s;
    var c := NumberPartEnd(s);
    assert c == |num|;
    assert s[c] == k;
    assert c + 1 < |s| ==> s[c + 1] == rest[0];
    assert WordBoundary(s, c + 1);
  }

  /** A decimal literal followed by a suffix character and then a non-word
      character (or the end of the text) is replaced by its scaled value. */
  lemma {:induction false} ExpandsSuffixedNumber(num: string, k: char, rest: string, table: SuffixTable, toFloat: string -> real, render: real -> string)
    requires ValidSuffixes(table)
    requires IsDecimal(num) && k in table && IsWordChar(k)
    requires |rest| == 0 || !IsWordChar(rest[0])
    ensures ExpandSuffixes(num + [k] + rest, table, toFloat, render)
         == Replacement(num, k, table, toFloat, render) + ExpandSuffixes(rest, table, toFloat, render)
  {
    SuffixedNumberMatches(num, k, rest, table);
    ReplaceAt(num + [k] + rest, |num|, table, toFloat, render);
    PartsOfSuffixed(num, k, rest);
  }

  /** A match whose suffix character sits at `m` is replaced, and the scan
      goes on after it. */
  lemma {:induction false} ReplaceAt(s: string, m: nat, table: SuffixTable, toFloat: string -> real, render: real -> string)
    requires ValidSuffixes(table)
    requires SuffixMatchLen(s, table) == m + 1
    ensures ExpandSuffixes(s, table, toFloat, render)
         == Replacement(s[..m], s[m], table, toFloat, render) + ExpandSuffixes(s[m + 1..], table, toFloat, render)
  {
    ExpandStep(s, table, toFloat, render);
  }

  lemma {:induction false} PartsOfSuffixed(num: string, k: char, rest: string)
    ensures var s := num + [k] + rest;
      s[..|num|] == num && s[|num|] == k && s[|num| + 1..] == rest
  {
    var s := num + [k] + rest;
    assert s[..|num|] == num;
    assert s[|num| + 1..] == rest;
  }

  /** A suffix character followed by another word character is not a unit
      suffix: `10km` or `2.5ms` is left as written. */
  lemma {:induction false} KeepsSuffixBeforeWordChar(num: string, k: char, x: char, table: SuffixTable, toFloat: string -> real, render: real -> string)
    requires ValidSuffixes(table)
    requires IsDecimal(num) && k in table && IsWordChar(k) && IsWordChar(x)
    ensures ExpandSuffixes(num + [k, x], table, toFloat, render) == num + [k, x]
  {
    var s := num + [k, x];
    assert s == num + ([k] + [x]);
    forall i | 0 <= i < |s|
      ensures SuffixMatchLen(s[i..], table) == 0
    {
      NoMatchBeforeWordChar(num, k, x, table, i);
    }
    ExpandWithoutMatchIsIdentity(s, table, toFloat, render);
  }

  /** No position of `num + [k, x]` starts a match. */
  lemma {:induction false} NoMatchBeforeWordChar(num: string, k: char, x: char, table: SuffixTable, i: nat)
    requires ValidSuffixes(table)
    requires IsDecimal(num) && k in table && IsWordChar(k) && IsWordChar(x)
    requires i < |num| + 2
    ensures SuffixMatchLen((num + [k, x])[i..], table) == 0
  {
    var s := num + [k, x];
    var t := s[i..];
    if i < |num| && IsDigit(num[i]) {
      assert s == num + ([k] + [x]);
      NumberPartEndsAtLiteralEnd(num, i, [k, x]);
      assert t[|num| - i] == k;
      assert t[|num| - i + 1] == x;
      assert !WordBoundary(t, |num| - i + 1);
    } else if i == |num| + 1 {
      assert t == [x];
      if IsDigit(x) {
        RunUnique(t, 0, 1, IsDigit);
      }
    } else {
      assert t[0] == s[i];
    }
  }
}

=== FILE: tables.dfy ===
/** The two configurations the program ships: the calculator's defaults and
    the circuit-experiment table, with worked examples of what the parser
    makes of a line under them. */
module Tables {

  import opened Results
  import opened Text
  import opened Operators
  import opened Tokenizer
  import opened Parser
  import opened Precedence
  import opened Suffixes
  import opened Calculator

  /** The default operators: series `+`, parallel `|`, relative error `%`. */
  const DefaultOps: OpTable := map[
    "+" := OpDef(Template("(", " + ", ")"), 1),
    "|" := OpDef(Template("quick_parrel(", ", ", ")"), 2),
    "%" := OpDef(Template("epercent(", ", ", ")"), 3)]

  /** The circuit experiment's operators: arithmetic, `^` for powers, and
      the parallel and relative-error operators. */
  const ExperimentOps: OpTable := map[
    "+" := OpDef(Template("(", " + ", ")"), 1),
    "-" := OpDef(Template("(", " - ", ")"), 1),
    "*" := OpDef(Template("(", " * ", ")"), 2),
    "/" := OpDef(Template("(", " / ", ")"), 2),
    "^" := OpDef(Template("(", " ** ", ")"), 3),
    "|" := OpDef(Template("quick_parrel(", ", ", ")"), 2),
    "%" := OpDef(Template("epercent(", ", ", ")"), 3)]

  /** The unit suffixes and their multipliers, the same in both configurations. */
  const DefaultSuffixes: SuffixTable := map[
    'G' := 1000000000.0, 'M' := 1000000.0, 'k' := 1000.0,
    'm' := 0.001, 'u' := 0.000001, 'n' := 0.000000001]

  lemma {:induction false} SuffixTablesValid()
    ensures ValidSuffixes(DefaultSuffixes)
    ensures DefaultSuffixes['k'] * DefaultSuffixes['m'] == 1.0
  {
    assert 'k' in DefaultSuffixes;
  }

  /** The default symbols are single punctuation characters. */
  lemma {:induction false} DefaultOpsShape()
    ensures SingleCharKeys(DefaultOps) && DefaultOps != map[]
    ensures CleanOpChars(OpChars(DefaultOps))
  {
    var ops := DefaultOps;
    assert "+" in ops;
    forall k | k in ops
      ensures |k| == 1 && !IsWordChar(k[0]) && !IsSpace(k[0]) && k[0] != '(' && k[0] != ')'
    {
      assert k in {"+", "|", "%"};
    }
    CleanSymbols(ops);
  }

  /** The precedence loop visits the default levels 3, 2, 1 in that order. */
  lemma {:induction false} DefaultLevels()
    ensures Levels(DefaultOps) == [3, 2, 1]
  {
    var ops := DefaultOps;
    forall k | k in ops
      ensures 1 <= ops[k].prec <= 3
    {
      assert k in {"+", "|", "%"};
    }
    assert ops["+"].prec == 1 && ops["|"].prec == 2 && ops["%"].prec == 3;
    forall x | 1 <= x <= 3
      ensures x in Precs(ops)
    {
      var k := if x == 1 then "+" else if x == 2 then "|" else "%";
      assert ops[k].prec == x;
    }
    LevelsOneToThree(ops);
  }

  lemma {:induction false} LevelsOneToThree(ops: OpTable)
    requires forall k :: k in ops ==> 1 <= ops[k].prec <= 3
    requires forall x :: 1 <= x <= 3 ==> x in Precs(ops)
    ensures Levels(ops) == [3, 2, 1]
  {
    LevelsCover(ops, 1, 3);
    var r := Levels(ops);
    assert |r| == 3 && r[0] == 3 && r[1] == 2 && r[2] == 1;
  }

  /** When the precedences are exactly `lo..hi`, the levels are `hi` down to `lo`. */
  lemma {:induction false} LevelsCover(ops: OpTable, lo: int, hi: int)
    requires lo <= hi
    requires forall k :: k in ops ==> lo <= ops[k].prec <= hi
    requires forall x :: lo <= x <= hi ==> x in Precs(ops)
    ensures |Levels(ops)| == hi - lo + 1 && forall i :: 0 <= i < |Levels(ops)| ==> Levels(ops)[i] == hi - i
  {
    var r := Levels(ops);
    LevelsSpec(ops);
    forall x | lo <= x <= hi
      ensures x in r
    {
      assert x in Precs(ops);
    }
    DescendingWithin(r, lo, hi);
  }

  /** A strictly decreasing sequence in `lo..hi` holding `lo`, `hi` and
      everything between is the whole range, from the top. */
  lemma {:induction false} DescendingWithin(r: seq<int>, lo: int, hi: int)
    requires lo <= hi && forall i :: 0 <= i < |r| ==> lo <= r[i] <= hi
    requires forall i, j :: 0 <= i < j < |r| ==> r[i] > r[j]
    requires forall x :: lo <= x <= hi ==> x in r
    ensures |r| == hi - lo + 1 && forall i :: 0 <= i < |r| ==> r[i] == hi - i
  {
    var k := FirstIndexOf(r, hi).value;
    assert r[0] <= hi;
    assert k == 0;
    var rest := r[1..];
    if lo < hi {
      forall x | lo <= x <= hi - 1
        ensures x in rest
      {
        var j := FirstIndexOf(r, x).value;
        assert rest[j - 1] == x;
      }
      DescendingWithin(rest, lo, hi - 1);
    } else {
      DescendingBound(r, lo, hi);
    }
  }

  /** A strictly decreasing sequence in `lo..hi` has at most `hi - lo + 1` elements. */
  lemma {:induction false} DescendingBound(r: seq<int>, lo: int, hi: int)
    requires forall i :: 0 <= i < |r| ==> lo <= r[i] <= hi
    requires forall i, j :: 0 <= i < j < |r| ==> r[i] > r[j]
    ensures |r| == 0 || |r| <= hi - lo + 1
    decreases |r|
  {
    if |r| > 1 {
      DescendingBound(r[1..], lo, r[0] - 1);
    }
  }

  /** With the default table, `|` binds tighter than `+`:
      `a + b | c` reads `(a + quick_parrel(b, c))`. */
  lemma {:induction false} SeriesOfParallel(a: string, b: string, c: string)
    requires IsIdent(a) && IsIdent(b) && IsIdent(c) && 'R' !in a + b + c
    ensures Parse(a + " + " + b + " | " + c, DefaultOps) == Ok("(" + a + " + " + ("quick_parrel(" + b + ", " + c + ")") + ")")
  {
    var out := "(" + a + " + " + ("quick_parrel(" + b + ", " + c + ")") + ")";
    SpacedOperators(a, b, c);
    SeriesOfParallelPlain(a, b, c);
    DefaultOpsShape();
    ParseFiveAtoms(DefaultOps, a, "+", b, "|", c);
    SeriesOfParallelRef(a, b, c);
  }

  lemma {:induction false} SpacedOperators(a: string, b: string, c: string)
    ensures a + " + " + b + " | " + c == a + (" " + "+" + " ") + b + (" " + "|" + " ") + c
  {
    assert " " + "+" + " " == " + " && " " + "|" + " " == " | ";
  }

  lemma {:induction false} SeriesOfParallelPlain(a: string, b: string, c: string)
    requires 'R' !in a + b + c
    ensures var out := "(" + a + " + " + ("quick_parrel(" + b + ", " + c + ")") + ")";
      AttachResistance(out) == out
  {
    var out := "(" + a + " + " + ("quick_parrel(" + b + ", " + c + ")") + ")";
    assert 'R' !in out;
  }

  lemma {:induction false} SeriesOfParallelRef(a: string, b: string, c: string)
    requires Alternating([a, "+", b, "|", c], DefaultOps)
    ensures Ref([a, "+", b, "|", c], DefaultOps) == "(" + a + " + " + ("quick_parrel(" + b + ", " + c + ")") + ")"
  {
    RefOfFive(a, "+", b, "|", c, DefaultOps);
  }

  /** Operators of one level group from the left: `a + b + c` reads `((a + b) + c)`. */
  lemma {:induction false} SeriesFromTheLeft(a: string, b: string, c: string)
    requires IsIdent(a) && IsIdent(b) && IsIdent(c) && 'R' !in a + b + c
    ensures Parse(a + " + " + b + " + " + c, DefaultOps) == Ok("(" + ("(" + a + " + " + b + ")") + " + " + c + ")")
  {
    SpacedSeries(a, b, c);
    SeriesFromTheLeftPlain(a, b, c);
    DefaultOpsShape();
    ParseFiveAtoms(DefaultOps, a, "+", b, "+", c);
    SeriesFromTheLeftRef(a, b, c);
  }

  lemma {:induction false} SpacedSeries(a: string, b: string, c: string)
    ensures a + " + " + b + " + " + c == a + (" " + "+" + " ") + b + (" " + "+" + " ") + c
  {
    assert " " + "+" + " " == " + ";
  }

  lemma {:induction false} SeriesFromTheLeftPlain(a: string, b: string, c: string)
    requires 'R' !in a + b + c
    ensures var out := "(" + ("(" + a + " + " + b + ")") + " + " + c + ")";
      AttachResistance(out) == out
  {
    var out := "(" + ("(" + a + " + " + b + ")") + " + " + c + ")";
    assert 'R' !in out;
  }

  lemma {:induction false} SeriesFromTheLeftRef(a: string, b: string, c: string)
    requires Alternating([a, "+", b, "+", c], DefaultOps)
    ensures Ref([a, "+", b, "+", c], DefaultOps) == "(" + ("(" + a + " + " + b + ")") + " + " + c + ")"
  {
    RefOfFive(a, "+", b, "+", c, DefaultOps);
  }

  /** Two resistors in parallel: the operator becomes a `quick_parrel` call
      and each resistor its resistance. */
  lemma {:induction false} ParallelResistors(x: string, y: string)
    requires IsRCall(x) && IsRCall(y)
    ensures Parse(x + " | " + y, DefaultOps) ==
      Ok("quick_parrel(" + x + ".resistance" + ", " + y + ".resistance" + ")")
  {
    assert x + " | " + y == x + (" " + "|" + " ") + y;
    DefaultOpsShape();
    ParseThreeAtoms(DefaultOps, x, "|", y);
    assert Fill(DefaultOps["|"].template, x, y) == "quick_parrel(" + x + ", " + y + ")";
    ParallelAccessors(x, y);
  }

  lemma {:induction false} ParallelAccessors(x: string, y: string)
    requires IsRCall(x) && IsRCall(y)
    ensures AttachResistance("quick_parrel(" + x + ", " + y + ")") ==
      "quick_parrel(" + x + ".resistance" + ", " + y + ".resistance" + ")"
  {
    assert 'R' !in "quick_parrel(" && 'R' !in ", " && 'R' !in ")";
    CallsBetweenPlainText("quick_parrel(", x, ", ", y, ")");
  }

  /** Two R-calls inside text that holds no other: each gets the accessor. */
  lemma {:induction false} CallsBetweenPlainText(p: string, x: string, c: string, y: string, e: string)
    requires IsRCall(x) && IsRCall(y) && 'R' !in p && 'R' !in c && 'R' !in e
    ensures AttachResistance(p + x + c + y + e) == p + x + Accessor + c + y + Accessor + e
  {
    var a := Accessor;
    var tail := c + (y + e);
    Regroup(p, x, c, y, e);
    AttachPlainPrefix(p, x + tail);
    AttachAfterCall(x, tail);
    AttachPlainPrefix(c, y + e);
    AttachAfterCall(y, e);
    assert AttachResistance(e) == e;
    Regroup7(p, x, a, c, y, a, e);
  }

  lemma {:induction false} Regroup(p: string, x: string, c: string, y: string, e: string)
    ensures p + x + c + y + e == p + (x + (c + (y + e)))
  {
  }

  lemma {:induction false} Regroup7(p: string, x: string, a: string, c: string, y: string, b: string, e: string)
    ensures p + (x + a + (c + (y + b + e))) == p + x + a + c + y + b + e
  {
  }

  /** The experiment's symbols are single punctuation characters as well. */
  lemma {:induction false} ExperimentOpsShape()
    ensures SingleCharKeys(ExperimentOps) && ExperimentOps != map[]
    ensures CleanOpChars(OpChars(ExperimentOps))
  {
    var ops := ExperimentOps;
    assert "+" in ops;
    forall k | k in ops
      ensures |k| == 1 && !IsWordChar(k[0]) && !IsSpace(k[0]) && k[0] != '(' && k[0] != ')'
    {
      assert k in {"+", "-", "*", "/", "^", "|", "%"};
    }
    CleanSymbols(ops);
  }

  /** In the experiment's table `^` is Python's power and binds tighter than
      `*`: `a * b ^ c` reads `(a * (b ** c))`. */
  lemma {:induction false} PowerBeforeProduct(a: string, b: string, c: string)
    requires IsIdent(a) && IsIdent(b) && IsIdent(c) && 'R' !in a + b + c
    ensures Parse(a + " * " + b + " ^ " + c, ExperimentOps) == Ok("(" + a + " * " + ("(" + b + " ** " + c + ")") + ")")
  {
    assert a + " * " + b + " ^ " + c == a + (" " + "*" + " ") + b + (" " + "^" + " ") + c by {
      assert " " + "*" + " " == " * " && " " + "^" + " " == " ^ ";
    }
    PowerBeforeProductPlain(a, b, c);
    ExperimentOpsShape();
    ParseFiveAtoms(ExperimentOps, a, "*", b, "^", c);
    PowerBeforeProductRef(a, b, c);
  }

  lemma {:induction false} PowerBeforeProductPlain(a: string, b: string, c: string)
    requires 'R' !in a + b + c
    ensures var out := "(" + a + " * " + ("(" + b + " ** " + c + ")") + ")";
      AttachResistance(out) == out
  {
    var out := "(" + a + " * " + ("(" + b + " ** " + c + ")") + ")";
    assert 'R' !in out;
  }

  lemma {:induction false} PowerBeforeProductRef(a: string, b: string, c: string)
    requires Alternating([a, "*", b, "^", c], ExperimentOps)
    ensures Ref([a, "*", b, "^", c], ExperimentOps) == "(" + a + " * " + ("(" + b + " ** " + c + ")") + ")"
  {
    RefOfFive(a, "*", b, "^", c, ExperimentOps);
  }
}

=== FILE: text.dfy ===
/** Character classes and string helpers shared by the suffix expander, the
    tokenizer and the session loop. Python's regular-expression classes `\s`,
    `\d` and `\w`, `str.strip`, `str.lower` and `str.isidentifier` are modelled
    on ASCII characters only. */
module Text {

  import opened Results

  /** `\d` */
  predicate IsDigit(c: char) { '0' <= c <= '9' }

  predicate IsAsciiLetter(c: char) { 'a' <= c <= 'z' || 'A' <= c <= 'Z' }

  /** `[a-zA-Z_]`, the first character of a name */
  predicate IsIdentStart(c: char) { IsAsciiLetter(c) || c == '_' }

  /** `\w` and `[a-zA-Z0-9_]` */
  predicate IsWordChar(c: char) { IsIdentStart(c) || IsDigit(c) }

  /** `\s`: space, tab, line feed, carriage return, vertical tab, form feed
      and the separators 0x1C to 0x1F, which Python also counts as whitespace. */
  predicate IsSpace(c: char) {
    c == ' ' || c == '\t' || c == '\n' || c == '\r' || c == '\U{000B}' || c == '\U{000C}'
    || ('\U{001C}' <= c <= '\U{001F}')
  }

  predicate NotClose(c: char) { c != ')' }

  /** Length of the longest run of characters satisfying `p` that starts at
      index `i` of `s`: the extent of a greedy `p*` match. */
  function Run(s: string, i: nat, p: char -> bool): (n: nat)
    requires i <= |s|
    ensures i + n <= |s|
    ensures forall j :: i <= j < i + n ==> p(s[j])
    ensures i + n == |s| || !p(s[i + n])
    decreases |s| - i
  {
    if i < |s| && p(s[i]) then 1 + Run(s, i + 1, p) else 0
  }

  /** A run is determined by where its characters stop satisfying `p`. */
  lemma {:induction false} RunUnique(s: string, i: nat, n: nat, p: char -> bool)
    requires i + n <= |s|
    requires forall j :: i <= j < i + n ==> p(s[j])
    requires i + n == |s| || !p(s[i + n])
    ensures Run(s, i, p) == n
    decreases n
  {
    if n > 0 {
      RunUnique(s, i + 1, n - 1, p);
    }
  }

  /** A run that stops inside `t`, or at the end of `t` before a character
      that cannot continue it, is not changed by appending `u`. */
  lemma {:induction false} RunAppend(t: string, u: string, i: nat, p: char -> bool)
    requires i <= |t|
    requires i + Run(t, i, p) < |t| || |u| == 0 || !p(u[0])
    ensures Run(t + u, i, p) == Run(t, i, p)
    decreases |t| - i
  {
    if i < |t| && p(t[i]) {
      assert (t + u)[i] == t[i];
      RunAppend(t, u, i + 1, p);
    } else if i < |t| {
      assert (t + u)[i] == t[i];
    } else {
      assert |u| == 0 || (t + u)[i] == u[0];
    }
  }

  /** Cutting `s` anywhere at or after the end of a run leaves the run unchanged. */
  lemma {:induction false} RunTake(s: string, n: nat, i: nat, p: char -> bool)
    requires i <= |s|
    requires i + Run(s, i, p) <= n <= |s|
    ensures Run(s[..n], i, p) == Run(s, i, p)
    decreases |s| - i
  {
    if i < |s| && p(s[i]) {
      assert s[..n][i] == s[i];
      RunTake(s, n, i + 1, p);
    } else if i < n {
      assert s[..n][i] == s[i];
    }
  }

  /** `c.lower()` for ASCII letters */
  function LowerChar(c: char): (r: char)
    ensures 'A' <= c <= 'Z' ==> 'a' <= r <= 'z'
    ensures !('A' <= c <= 'Z') ==> r == c
  {
    if 'A' <= c <= 'Z' then (c as int - 'A' as int + 'a' as int) as char else c
  }

  function Lower(s: string): (r: string)
    ensures |r| == |s|
    ensures forall i :: 0 <= i < |s| ==> r[i] == LowerChar(s[i])
  {
    seq(|s|, i requires 0 <= i < |s| => LowerChar(s[i]))
  }

  /** Number of whitespace characters at the end of `s`. */
  function TrailingSpaces(s: string): (n: nat)
    ensures n <= |s|
    ensures forall j :: |s| - n <= j < |s| ==> IsSpace(s[j])
    ensures n == |s| || !IsSpace(s[|s| - n - 1])
    decreases |s|
  {
    if |s| > 0 && IsSpace(s[|s| - 1]) then 1 + TrailingSpaces(s[..|s| - 1]) else 0
  }

  /** `s.strip()`: `s` without its leading and trailing whitespace. */
  function Strip(s: string): (r: string)
    ensures |r| <= |s|
    ensures |r| == 0 || (!IsSpace(r[0]) && !IsSpace(r[|r| - 1]))
    ensures (forall j :: 0 <= j < |s| ==> !IsSpace(s[j])) ==> r == s
  {
    var a := Run(s, 0, IsSpace);
    var t := s[a..];
    t[..|t| - TrailingSpaces(t)]
  }

  /** The trailing whitespace is determined by where it starts. */
  lemma {:induction false} TrailingSpacesUnique(s: string, n: nat)
    requires n <= |s|
    requires forall j :: |s| - n <= j < |s| ==> IsSpace(s[j])
    requires n == |s| || !IsSpace(s[|s| - n - 1])
    ensures TrailingSpaces(s) == n
  {
  }

  /** `strip` removes exactly the whitespace around a text that neither
      starts nor ends with whitespace. */
  lemma {:induction false} StripAround(w1: string, x: string, w2: string)
    requires forall i :: 0 <= i < |w1| ==> IsSpace(w1[i])
    requires forall i :: 0 <= i < |w2| ==> IsSpace(w2[i])
    requires |x| > 0 && !IsSpace(x[0]) && !IsSpace(x[|x| - 1])
    ensures Strip(w1 + x + w2) == x
  {
    var s := w1 + x + w2;
    assert forall j :: 0 <= j < |w1| ==> s[j] == w1[j];
    assert s[|w1|] == x[0];
    RunUnique(s, 0, |w1|, IsSpace);
    var t := s[|w1|..];
    assert t == x + w2;
    assert forall j :: |t| - |w2| <= j < |t| ==> t[j] == w2[j - |x|];
    assert t[|t| - |w2| - 1] == x[|x| - 1];
    TrailingSpacesUnique(t, |w2|);
    assert t[..|t| - |w2|] == x;
  }

  /** `s.isidentifier()` for ASCII text: a non-empty name whose first
      character is a letter or underscore and whose others are word characters. */
  predicate IsIdentifier(s: string) {
    |s| > 0 && IsIdentStart(s[0]) && forall i :: 1 <= i < |s| ==> IsWordChar(s[i])
  }

  /** Index of the first occurrence of `x` in `s`, if any (`str.find`, `list.index`). */
  function FirstIndexOf<T(==)>(s: seq<T>, x: T): (r: Option<nat>)
    ensures r.None? <==> x !in s
    ensures r.Some? ==> r.value < |s| && s[r.value] == x
    ensures r.Some? ==> forall j :: 0 <= j < r.value ==> s[j] != x
  {
    FirstIndexFrom(s, x, 0)
  }

  /** The first occurrence of `x` at or after `i`. */
  function FirstIndexFrom<T(==)>(s: seq<T>, x: T, i: nat): (r: Option<nat>)
    requires forall j :: 0 <= j < i && j < |s| ==> s[j] != x
    ensures r.None? <==> x !in s
    ensures r.Some? ==> i <= r.value < |s| && s[r.value] == x
    ensures r.Some? ==> forall j :: 0 <= j < r.value ==> s[j] != x
    decreases |s| - i
  {
    if i >= |s| then None
    else if s[i] == x then Some(i)
    else FirstIndexFrom(s, x, i + 1)
  }

  /** Index of the last occurrence of `x` in `s`, if any. */
  function LastIndexOf<T(==)>(s: seq<T>, x: T): (r: Option<nat>)
    ensures r.None? <==> x !in s
    ensures r.Some? ==> r.value < |s| && s[r.value] == x
    ensures r.Some? ==> forall j :: r.value < j < |s| ==> s[j] != x
  {
    LastIndexBefore(s, x, |s|)
  }

  /** The last occurrence of `x` before `n`. */
  function LastIndexBefore<T(==)>(s: seq<T>, x: T, n: nat): (r: Option<nat>)
    requires n <= |s| && forall j :: n <= j < |s| ==> s[j] != x
    ensures r.None? <==> x !in s
    ensures r.Some? ==> r.value < n && s[r.value] == x
    ensures r.Some? ==> forall j :: r.value < j < |s| ==> s[j] != x
    decreases n
  {
    if n == 0 then None
    else if s[n - 1] == x then Some(n - 1)
    else LastIndexBefore(s, x, n - 1)
  }

  /** An occurrence with none before it is the one `FirstIndexOf` finds. */
  lemma {:induction false} FirstIndexIs<T>(s: seq<T>, x: T, k: nat)
    requires k < |s| && s[k] == x && x !in s[..k]
    ensures FirstIndexOf(s, x) == Some(k)
  {
    assert x in s by {
      assert s[k] in s;
    }
    var r := FirstIndexOf(s, x).value;
    assert forall j :: 0 <= j < k ==> s[j] != x by {
      forall j | 0 <= j < k
        ensures s[j] != x
      {
        assert s[..k][j] == s[j];
      }
    }
    assert forall j :: 0 <= j < r ==> s[j] != x by {
      forall j | 0 <= j < r
        ensures s[j] != x
      {
        assert s[..r][j] == s[j];
      }
    }
  }

  /** An occurrence with none after it is the one `LastIndexOf` finds. */
  lemma {:induction false} LastIndexIs<T>(s: seq<T>, x: T, k: nat)
    requires k < |s| && s[k] == x && x !in s[k + 1..]
    ensures LastIndexOf(s, x) == Some(k)
  {
    assert x in s by {
      assert s[k] in s;
    }
    var r := LastIndexOf(s, x).value;
    assert forall j :: k < j < |s| ==> s[j] != x by {
      forall j | k < j < |s|
        ensures s[j] != x
      {
        assert s[k + 1..][j - k - 1] == s[j];
      }
    }
    assert forall j :: r < j < |s| ==> s[j] != x by {
      forall j | r < j < |s|
        ensures s[j] != x
      {
        assert s[r + 1..][j - r - 1] == s[j];
      }
    }
  }
}

=== FILE: tokenizer.dfy ===
/** `Calculator._tokenize`: `re.findall` with the alternation
      (R\s*\([^)]+\)) | ([a-zA-Z_][a-zA-Z0-9_]*) | (\d+\.?\d*(?:e[+-]?\d+)?)
      | \s*([<operator characters>]) | \s*(\() | (\))
    re-implemented as a deterministic scanner. At each position the
    alternatives are tried in this order and the first that matches wins;
    each alternative is a greedy match, and where Python's matcher would
    backtrack (giving back whitespace before an operator character) the
    scanner does the same. A position where nothing matches is skipped. */
module Tokenizer {

  import opened Results
  import opened Text

  /** Length of a match of `R\s*\([^)]+\)` at the start of `s`, or 0: `R`,
      optional whitespace, `(`, at least one character other than `)`, and the
      first `)` after that. */
  function RCallLen(s: string): (n: nat)
    ensures n <= |s|
    ensures n > 0 ==> n >= 4 && s[0] == 'R' && s[n - 1] == ')'
  {
    if |s| == 0 || s[0] != 'R' then 0
    else
      var w := Run(s, 1, IsSpace);
      if 1 + w < |s| && s[1 + w] == '(' then
        var b := Run(s, 2 + w, NotClose);
        if b >= 1 && 2 + w + b < |s| then 3 + w + b else 0
      else 0
  }

  /** Every `R`, whitespace, `(`, a non-empty text without `)`, and `)` is
      matched in full, whatever follows it; as a whole token it is a call. */
  lemma {:induction false} RCallOf(w: string, b: string, u: string)
    requires forall i :: 0 <= i < |w| ==> IsSpace(w[i])
    requires |b| > 0 && forall i :: 0 <= i < |b| ==> b[i] != ')'
    ensures RCallLen("R" + w + "(" + b + ")" + u) == |w| + |b| + 3
    ensures IsRCall("R" + w + "(" + b + ")")
  {
    RCallAt("R" + w + "(" + b + ")" + u, w, b);
    RCallAt("R" + w + "(" + b + ")", w, b);
  }

  lemma {:induction false} RCallAt(s: string, w: string, b: string)
    requires |s| >= |w| + |b| + 3 && s[..|w| + |b| + 3] == "R" + w + "(" + b + ")"
    requires forall i :: 0 <= i < |w| ==> IsSpace(w[i])
    requires |b| > 0 && forall i :: 0 <= i < |b| ==> b[i] != ')'
    ensures RCallLen(s) == |w| + |b| + 3
  {
    var n := |w| + |b| + 3;
    RCallText(w, b);
    assert forall j :: 0 <= j < n ==> s[j] == s[..n][j];
    RunUnique(s, 1, |w|, IsSpace);
    RunUnique(s, 2 + |w|, |b|, NotClose);
  }

  lemma {:induction false} RCallText(w: string, b: string)
    ensures var c := "R" + w + "(" + b + ")";
      |c| == |w| + |b| + 3 && c[0] == 'R' && c[1 + |w|] == '(' && c[2 + |w| + |b|] == ')' &&
      (forall j :: 1 <= j < 1 + |w| ==> c[j] == w[j - 1]) &&
      (forall j :: 2 + |w| <= j < 2 + |w| + |b| ==> c[j] == b[j - 2 - |w|])
  {
  }

  /** Length of a match of `[a-zA-Z_][a-zA-Z0-9_]*` at the start of `s`, or 0. */
  function IdentLen(s: string): (n: nat)
    ensures n <= |s|
    ensures n > 0 ==> IsIdentStart(s[0]) && forall j :: 1 <= j < n ==> IsWordChar(s[j])
  {
    if |s| > 0 && IsIdentStart(s[0]) then 1 + Run(s, 1, IsWordChar) else 0
  }

  /** The characters a numeric literal can contain. */
  predicate IsNumberChar(c: char) {
    IsDigit(c) || c == '.' || c == 'e' || c == '+' || c == '-'
  }

  /** Length of the exponent `e[+-]?\d+` at index `c` of `s`, or 0 when the
      optional group matches nothing (a sign without digits is given back). */
  function ExponentLen(s: string, c: nat): (n: nat)
    requires c <= |s|
    ensures c + n <= |s|
    ensures forall j :: c <= j < c + n ==> IsNumberChar(s[j])
  {
    if c < |s| && s[c] == 'e' then
      var d := if c + 1 < |s| && (s[c + 1] == '+' || s[c + 1] == '-') then c + 2 else c + 1;
      var k := Run(s, d, IsDigit);
      if k > 0 then d - c + k else 0
    else 0
  }

  /** Length of the mantissa `\d+\.?\d*` at the start of `s`, or 0. */
  function MantissaLen(s: string): (n: nat)
    ensures n <= |s|
    ensures n > 0 ==> IsDigit(s[0])
    ensures forall j :: 0 <= j < n ==> IsNumberChar(s[j])
  {
    var a := Run(s, 0, IsDigit);
    if a == 0 then 0
    else
      var b := if a < |s| && s[a] == '.' then a + 1 else a;
      b + Run(s, b, IsDigit)
  }

  /** Length of a match of `\d+\.?\d*(?:e[+-]?\d+)?` at the start of `s`, or 0. */
  function NumLen(s: string): (n: nat)
    ensures n <= |s|
    ensures n > 0 ==> IsDigit(s[0])
    ensures forall j :: 0 <= j < n ==> IsNumberChar(s[j])
  {
    var c := MantissaLen(s);
    if c == 0 then 0 else c + ExponentLen(s, c)
  }

  /** Greedy `\s*` followed by an operator character, backtracking over the
      whitespace: the largest `j <= k` whose character is an operator character. */
  function LastOpAtOrBefore(s: string, opc: set<char>, k: nat): (r: Option<nat>)
    requires k <= |s|
    ensures r.Some? ==> r.value <= k && r.value < |s| && s[r.value] in opc
    ensures r.None? ==> forall j :: 0 <= j <= k && j < |s| ==> s[j] !in opc
    decreases k
  {
    if k < |s| && s[k] in opc then Some(k)
    else if k == 0 then None
    else LastOpAtOrBefore(s, opc, k - 1)
  }

  /** Where `\s*([<operator characters>])` matches at the start of `s`: the
      index of the operator character, which only whitespace precedes. */
  function OpIndex(s: string, opc: set<char>): (r: Option<nat>)
    ensures r.Some? ==> r.value < |s| && s[r.value] in opc
    ensures r.Some? ==> forall j :: 0 <= j < r.value ==> IsSpace(s[j])
  {
    LastOpAtOrBefore(s, opc, Run(s, 0, IsSpace))
  }

  /** A match: the token is `s[start..end]` and scanning resumes at `end`. */
  datatype Match = Match(start: nat, end: nat)

  /** The token kinds. Each is a string that one alternative matches exactly. */
  predicate IsRCall(t: string) { |t| > 0 && RCallLen(t) == |t| }
  predicate IsIdent(t: string) { |t| > 0 && IdentLen(t) == |t| }
  predicate IsNumber(t: string) { |t| > 0 && NumLen(t) == |t| }
  predicate IsOpToken(t: string, opc: set<char>) { |t| == 1 && t[0] in opc }
  predicate IsParen(t: string) { t == "(" || t == ")" }

  predicate IsLexeme(t: string, opc: set<char>) {
    IsRCall(t) || IsIdent(t) || IsNumber(t) || IsOpToken(t, opc) || IsParen(t)
  }

  /** Operator characters as configured in practice: punctuation other than
      the parentheses, never a word character or whitespace. */
  predicate CleanOpChars(opc: set<char>) {
    forall c :: c in opc ==> !IsWordChar(c) && !IsSpace(c) && c != '(' && c != ')'
  }

  /** One `findall` step at the start of `s`: the alternatives in order. */
  function MatchAt(s: string, opc: set<char>): (m: Option<Match>)
    ensures m.Some? ==> m.value.start < m.value.end <= |s|
    ensures m.Some? ==> IsLexeme(s[m.value.start..m.value.end], opc)
    ensures m.Some? && m.value.start > 0 ==> forall j :: 0 <= j < m.value.start ==> IsSpace(s[j])
  {
    var r := RCallLen(s);
    if r > 0 then
      RCallPrefix(s);
      Some(Match(0, r))
    else
      var id := IdentLen(s);
      if id > 0 then
        IdentPrefix(s);
        Some(Match(0, id))
      else
        var num := NumLen(s);
        if num > 0 then
          NumPrefix(s);
          Some(Match(0, num))
        else
          match OpIndex(s, opc)
          case Some(k) => Some(Match(k, k + 1))
          case None =>
            var w := Run(s, 0, IsSpace);
            if w < |s| && s[w] == '(' then Some(Match(w, w + 1))
            else if 0 < |s| && s[0] == ')' then Some(Match(0, 1))
            else None
  }

  /** The tokens appear in `s` as non-overlapping substrings, left to right. */
  ghost predicate InSourceOrder(toks: seq<string>, s: string)
    decreases |toks|
  {
    |toks| == 0 ||
    exists a: nat, b: nat :: a <= b <= |s| && s[a..b] == toks[0] && InSourceOrder(toks[1..], s[b..])
  }

  /** `[''.join(t) for t in pattern.findall(expr) if any(t)]` */
  function Tokenize(s: string, opc: set<char>): (toks: seq<string>)
    ensures forall i :: 0 <= i < |toks| ==> IsLexeme(toks[i], opc)
    ensures (forall c :: c in opc ==> !IsSpace(c)) ==>
      forall i, j :: 0 <= i < |toks| && 0 <= j < |toks[i]| && IsSpace(toks[i][j]) ==> IsRCall(toks[i])
    ensures InSourceOrder(toks, s)
    decreases |s|
  {
    if |s| == 0 then []
    else
      match MatchAt(s, opc)
      case None =>
        var rest := Tokenize(s[1..], opc);
        InSourceOrderSkip(rest, s);
        rest
      case Some(m) =>
        var t := s[m.start..m.end];
        var rest := Tokenize(s[m.end..], opc);
        LexemeSpaces(t, opc);
        assert ([t] + rest)[1..] == rest;
        [t] + rest
  }

  // ---------------------------------------------------------------------
  // Each alternative's match, cut out of the text, is matched whole again.

  lemma {:induction false} RCallPrefix(s: string)
    requires RCallLen(s) > 0
    ensures IsRCall(s[..RCallLen(s)])
  {
    var n := RCallLen(s);
    var t := s[..n];
    var w := Run(s, 1, IsSpace);
    var b := Run(s, 2 + w, NotClose);
    RunTake(s, n, 1, IsSpace);
    RunTake(s, n, 2 + w, NotClose);
    assert t[0] == s[0] && t[1 + w] == s[1 + w];
  }

  lemma {:induction false} IdentPrefix(s: string)
    requires IdentLen(s) > 0
    ensures IsIdent(s[..IdentLen(s)])
  {
    var n := IdentLen(s);
    RunTake(s, n, 1, IsWordChar);
    assert s[..n][0] == s[0];
  }

  lemma {:induction false} ExponentPrefix(s: string, c: nat, n: nat)
    requires c <= |s| && c + ExponentLen(s, c) == n <= |s|
    ensures ExponentLen(s[..n], c) == ExponentLen(s, c)
  {
    var t := s[..n];
    if c < |s| && s[c] == 'e' {
      var d := if c + 1 < |s| && (s[c + 1] == '+' || s[c + 1] == '-') then c + 2 else c + 1;
      var k := Run(s, d, IsDigit);
      if k > 0 {
        assert t[c] == s[c];
        assert c + 1 < n ==> t[c + 1] == s[c + 1];
        RunTake(s, n, d, IsDigit);
      }
    }
  }

  lemma {:induction false} MantissaPrefix(s: string, n: nat)
    requires MantissaLen(s) <= n <= |s|
    ensures MantissaLen(s[..n]) == MantissaLen(s)
  {
    var t := s[..n];
    var a := Run(s, 0, IsDigit);
    RunTake(s, n, 0, IsDigit);
    if a > 0 {
      assert a < n ==> t[a] == s[a];
      var b := if a < |s| && s[a] == '.' then a + 1 else a;
      RunTake(s, n, b, IsDigit);
    }
  }

  lemma {:induction false} NumPrefix(s: string)
    requires NumLen(s) > 0
    ensures IsNumber(s[..NumLen(s)])
  {
    var n := NumLen(s);
    var c := MantissaLen(s);
    MantissaPrefix(s, n);
    ExponentPrefix(s, c, n);
  }

  // ---------------------------------------------------------------------
  // Kinds of token and the characters they contain.

  lemma {:induction false} IdentChars(t: string)
    requires IsIdent(t)
    ensures forall j :: 0 <= j < |t| ==> IsWordChar(t[j])
  {
  }

  /** Only an R-call can contain whitespace (when no operator character is whitespace). */
  lemma {:induction false} LexemeSpaces(t: string, opc: set<char>)
    requires IsLexeme(t, opc)
    ensures (forall c :: c in opc ==> !IsSpace(c)) ==>
      forall j :: 0 <= j < |t| && IsSpace(t[j]) ==> IsRCall(t)
  {
    if IsIdent(t) {
      IdentChars(t);
    }
  }

  /** With clean operator characters every token has exactly one kind. */
  lemma {:induction false} LexemeKindsExclusive(t: string, opc: set<char>)
    requires CleanOpChars(opc) && IsLexeme(t, opc)
    ensures (if IsRCall(t) then 1 else 0) + (if IsIdent(t) then 1 else 0) + (if IsNumber(t) then 1 else 0)
          + (if IsOpToken(t, opc) then 1 else 0) + (if IsParen(t) then 1 else 0) == 1
  {
    if IsRCall(t) {
      var w := Run(t, 1, IsSpace);
      assert t[1 + w] == '(';
      if IsIdent(t) {
        IdentChars(t);
        assert false;
      }
    }
  }

  // ---------------------------------------------------------------------
  // Joining lexemes with single spaces and tokenising gives them back.

  /** Tokens separated by single spaces. */
  function Join(toks: seq<string>): string
  {
    if |toks| == 0 then ""
    else if |toks| == 1 then toks[0]
    else toks[0] + " " + Join(toks[1..])
  }

  /** Text that starts with a separator, or nothing. */
  predicate Separated(u: string) { |u| == 0 || IsSpace(u[0]) }

  lemma {:induction false} RCallAppend(t: string, u: string)
    requires IsRCall(t)
    ensures RCallLen(t + u) == |t|
  {
    var w := Run(t, 1, IsSpace);
    var b := Run(t, 2 + w, NotClose);
    RunAppend(t, u, 1, IsSpace);
    RunAppend(t, u, 2 + w, NotClose);
    assert (t + u)[0] == t[0] && (t + u)[1 + w] == t[1 + w];
  }

  lemma {:induction false} IdentAppend(t: string, u: string)
    requires IsIdent(t) && Separated(u)
    ensures IdentLen(t + u) == |t|
  {
    RunAppend(t, u, 1, IsWordChar);
    assert (t + u)[0] == t[0];
  }

  lemma {:induction false} ExponentAppend(t: string, u: string, c: nat)
    requires c <= |t| && c + ExponentLen(t, c) == |t| && Separated(u)
    ensures ExponentLen(t + u, c) == ExponentLen(t, c)
  {
    var s := t + u;
    if c == |t| {
      assert |u| == 0 || s[c] == u[0];
    } else {
      assert s[c] == t[c];
      var d := if c + 1 < |t| && (t[c + 1] == '+' || t[c + 1] == '-') then c + 2 else c + 1;
      assert c + 1 < |t| ==> s[c + 1] == t[c + 1];
      RunAppend(t, u, d, IsDigit);
    }
  }

  lemma {:induction false} MantissaAppend(t: string, u: string)
    requires MantissaLen(t) > 0 && Separated(u)
    requires MantissaLen(t) == |t| || !IsDigit(t[MantissaLen(t)])
    ensures MantissaLen(t + u) == MantissaLen(t)
  {
    var s := t + u;
    var a := Run(t, 0, IsDigit);
    RunAppend(t, u, 0, IsDigit);
    assert a < |t| ==> s[a] == t[a];
    assert a == |t| && |u| > 0 ==> s[a] == u[0];
    var b := if a < |t| && t[a] == '.' then a + 1 else a;
    RunAppend(t, u, b, IsDigit);
  }

  lemma {:induction false} NumAppend(t: string, u: string)
    requires IsNumber(t) && Separated(u)
    ensures NumLen(t + u) == |t|
  {
    var c := MantissaLen(t);
    MantissaAppend(t, u);
    ExponentAppend(t, u, c);
  }

  lemma {:induction false} MatchIdent(t: string, u: string)
    requires IsIdent(t) && Separated(u)
    requires t == "R" ==> RCallLen(t + u) == 0
    ensures RCallLen(t + u) == 0 && IdentLen(t + u) == |t|
  {
    var s := t + u;
    assert s[0] == t[0];
    IdentAppend(t, u);
    if t[0] == 'R' && |t| > 1 {
      assert s[1] == t[1];
      RunUnique(s, 1, 0, IsSpace);
    }
  }

  lemma {:induction false} MatchNumber(t: string, u: string)
    requires IsNumber(t) && Separated(u)
    ensures RCallLen(t + u) == 0 && IdentLen(t + u) == 0 && NumLen(t + u) == |t|
  {
    assert (t + u)[0] == t[0];
    NumAppend(t, u);
  }

  /** An operator character or a parenthesis: a one-character lexeme. */
  lemma {:induction false} MatchSingle(t: string, u: string, opc: set<char>)
    requires CleanOpChars(opc) && (IsOpToken(t, opc) || IsParen(t))
    ensures RCallLen(t + u) == 0 && IdentLen(t + u) == 0 && NumLen(t + u) == 0
    ensures t[0] in opc ==> OpIndex(t + u, opc) == Some(0)
    ensures t[0] !in opc ==> OpIndex(t + u, opc).None? && Run(t + u, 0, IsSpace) == 0
  {
    var s := t + u;
    assert s[0] == t[0];
    RunUnique(s, 0, 0, IsSpace);
    RunUnique(s, 0, 0, IsDigit);
  }

  /** A lexeme followed by a separator (or the end of the text) is matched
      whole, provided a lone `R` is not followed by what would make it an R-call. */
  lemma {:induction false} MatchLexeme(t: string, u: string, opc: set<char>)
    requires CleanOpChars(opc) && IsLexeme(t, opc) && Separated(u)
    requires t == "R" ==> RCallLen(t + u) == 0
    ensures MatchAt(t + u, opc) == Some(Match(0, |t|))
  {
    if IsRCall(t) {
      RCallAppend(t, u);
    } else if IsIdent(t) {
      MatchIdent(t, u);
    } else if IsNumber(t) {
      MatchNumber(t, u);
    } else {
      MatchSingle(t, u, opc);
      assert (t + u)[0] == t[0];
    }
  }

  lemma {:induction false} TokenizeSkip(s: string, opc: set<char>)
    requires |s| > 0 && MatchAt(s, opc).None?
    ensures Tokenize(s, opc) == Tokenize(s[1..], opc)
  {
  }

  lemma {:induction false} TokenizeTake(s: string, opc: set<char>, m: Match)
    requires |s| > 0 && MatchAt(s, opc) == Some(m)
    ensures Tokenize(s, opc) == [s[m.start..m.end]] + Tokenize(s[m.end..], opc)
  {
  }

  /** How the scanner reads a single space in front of text that does not
      start with whitespace: the match, if any, is one character at index 1. */
  lemma {:induction false} MatchAfterSpace(v: string, opc: set<char>)
    requires CleanOpChars(opc)
    requires |v| == 0 || !IsSpace(v[0])
    ensures |v| > 0 && (v[0] in opc || v[0] == '(') ==>
      MatchAt(" " + v, opc) == Some(Match(1, 2)) && MatchAt(v, opc) == Some(Match(0, 1))
    ensures !(|v| > 0 && (v[0] in opc || v[0] == '(')) ==> MatchAt(" " + v, opc).None?
  {
    var s := " " + v;
    RunUnique(s, 0, 1, IsSpace);
    if |v| > 0 {
      assert s[1] == v[0];
      RunUnique(v, 0, 0, IsSpace);
    }
  }

  /** A single space before text that does not itself start with whitespace
      is skipped or absorbed into the next token's match without changing it. */
  lemma {:induction false} SpaceSkipped(v: string, opc: set<char>)
    requires CleanOpChars(opc)
    requires |v| == 0 || !IsSpace(v[0])
    ensures Tokenize(" " + v, opc) == Tokenize(v, opc)
  {
    var s := " " + v;
    MatchAfterSpace(v, opc);
    if |v| > 0 && (v[0] in opc || v[0] == '(') {
      TokenizeTake(s, opc, Match(1, 2));
      TokenizeTake(v, opc, Match(0, 1));
      assert s[1..2] == v[0..1] && s[2..] == v[1..];
    } else {
      TokenizeSkip(s, opc);
      assert s[1..] == v;
    }
  }

  lemma {:induction false} LexemeStart(t: string, opc: set<char>)
    requires CleanOpChars(opc) && IsLexeme(t, opc)
    ensures |t| > 0 && !IsSpace(t[0])
    ensures t[0] == '(' ==> t == "("
  {
  }

  lemma {:induction false} JoinStart(toks: seq<string>)
    requires |toks| > 0 && |toks[0]| > 0
    ensures |Join(toks)| > 0 && Join(toks)[0] == toks[0][0]
  {
  }

  /** A lexeme, a space and the text after it: the lexeme is the first token
      and the rest is tokenised as if the space were not there. */
  lemma {:induction false} TokenizeLexemeThen(t: string, v: string, opc: set<char>)
    requires CleanOpChars(opc) && IsLexeme(t, opc)
    requires |v| == 0 || !IsSpace(v[0])
    requires t == "R" ==> |v| == 0 || v[0] != '('
    ensures Tokenize(t + " " + v, opc) == [t] + Tokenize(v, opc)
  {
    var u := " " + v;
    var s := t + u;
    assert s == t + " " + v;
    LexemeStart(t, opc);
    if t == "R" {
      assert s[1] == ' ';
      assert |v| > 0 ==> s[2] == v[0];
      RunUnique(s, 1, 1, IsSpace);
    }
    MatchLexeme(t, u, opc);
    TokenizeTake(s, opc, Match(0, |t|));
    assert s[0..|t|] == t && s[|t|..] == u;
    SpaceSkipped(v, opc);
  }

  /** A lexeme on its own is one token. */
  lemma {:induction false} TokenizeLexeme(t: string, opc: set<char>)
    requires CleanOpChars(opc) && IsLexeme(t, opc)
    ensures Tokenize(t, opc) == [t]
  {
    assert t + "" == t;
    LexemeStart(t, opc);
    MatchLexeme(t, "", opc);
    TokenizeTake(t, opc, Match(0, |t|));
    assert t[0..|t|] == t && t[|t|..] == "";
  }

  /** The first of two or more joined lexemes is read off as the first token. */
  lemma {:induction false} TokenizeJoinStep(toks: seq<string>, opc: set<char>)
    requires CleanOpChars(opc) && |toks| > 1
    requires IsLexeme(toks[0], opc) && IsLexeme(toks[1], opc)
    requires !(toks[0] == "R" && toks[1] == "(")
    ensures Tokenize(Join(toks), opc) == [toks[0]] + Tokenize(Join(toks[1..]), opc)
  {
    var t := toks[0];
    var rest := toks[1..];
    var v := Join(rest);
    LexemeStart(rest[0], opc);
    JoinStart(rest);
    assert Join(toks) == t + " " + v;
    TokenizeLexemeThen(t, v, opc);
  }

  /** Joining lexemes with single spaces and tokenising the result gives the
      same tokens back, provided no identifier `R` is immediately followed by
      a `(` token (the two would read as the start of an R-call). */
  lemma {:induction false} TokenizeJoin(toks: seq<string>, opc: set<char>)
    requires CleanOpChars(opc)
    requires forall i :: 0 <= i < |toks| ==> IsLexeme(toks[i], opc)
    requires forall i :: 0 <= i < |toks| - 1 ==> !(toks[i] == "R" && toks[i + 1] == "(")
    ensures Tokenize(Join(toks), opc) == toks
    decreases |toks|
  {
    if |toks| == 1 {
      TokenizeLexeme(toks[0], opc);
    } else if |toks| > 1 {
      TokenizeJoin(toks[1..], opc);
      TokenizeJoinCons(toks, opc);
    }
  }

  /** The inductive step: if the rest round-trips, so does the whole list. */
  lemma {:induction false} TokenizeJoinCons(toks: seq<string>, opc: set<char>)
    requires CleanOpChars(opc) && |toks| > 1
    requires IsLexeme(toks[0], opc) && IsLexeme(toks[1], opc)
    requires !(toks[0] == "R" && toks[1] == "(")
    requires Tokenize(Join(toks[1..]), opc) == toks[1..]
    ensures Tokenize(Join(toks), opc) == toks
  {
    TokenizeJoinStep(toks, opc);
    assert toks == [toks[0]] + toks[1..];
  }

  /** Dropping a skipped first character keeps the tokens in source order. */
  lemma {:induction false} InSourceOrderSkip(toks: seq<string>, s: string)
    requires |s| > 0 && InSourceOrder(toks, s[1..])
    ensures InSourceOrder(toks, s)
  {
    if |toks| > 0 {
      var a: nat, b: nat :| a <= b <= |s[1..]| && s[1..][a..b] == toks[0] && InSourceOrder(toks[1..], s[1..][b..]);
      assert s[1..][a..b] == s[a + 1..b + 1];
      assert s[1..][b..] == s[b + 1..];
    }
  }

  /** Text with no character that can begin or be absorbed into a token
      yields no tokens: unknown characters are skipped, never rejected. */
  lemma {:induction false} UnknownCharsSkipped(s: string, opc: set<char>)
    requires forall i :: 0 <= i < |s| ==> !IsWordChar(s[i]) && s[i] !in opc && s[i] != '(' && s[i] != ')'
    ensures Tokenize(s, opc) == []
    decreases |s|
  {
    if |s| > 0 {
      RunUnique(s, 0, 0, IsDigit);
      var w := Run(s, 0, IsSpace);
      assert MatchAt(s, opc).None?;
      UnknownCharsSkipped(s[1..], opc);
    }
  }
}
